=== FILE: README.md ===
# ginga staged renderer — a Dafny model

This project models the control logic of ginga's staged renderer and
proves properties about it. The model covers two things.

- **The viewer render pipeline** (`ginga/util/stages/render.py`). Six
  whole-frame stages share one context: CreateBg → Overlays → ICCProf →
  FlipSwap → Rotate → Output. Overlays composites every image on the canvas
  into a copy of the background. It does this by running a per-image
  mini-pipeline, cached with the image: Scale → Reorder → Merge for a plain
  image, and Scale → Reorder → Cuts → RGBMap → Merge for a value-mapped
  (Norm) image. The invalidation level `whence`, a real number as in the code,
  decides where each image's mini-pipeline restarts, or whether the image
  is skipped.
- **The colour-mapping stage of the image-processing pipeline**
  (`ginga/util/stages/rgbmap.py`). It has seven parameters and property
  setters that mirror values into the GUI. Its callbacks each log one
  undoable `StageAction` and then re-run the pipeline from this stage. It
  also has reset operations, a `run`, and a dictionary export/import.

Pixel values are abstracted away. An array (`Arrays.Array`) keeps its
shape, a channel tag for each band, its dtype, a value range, and the list
of images composited onto it. A `Raster` is an array whose tags fit its
shape. Python exceptions are `Outcomes.Error`: the renderer's own
`StageError`, or a `Fault` for any other exception the code would raise.
The colour-mapping stage's setters and callbacks, which may raise partway,
return an `Outcomes.Attempt`, which keeps the partly changed object. The
render path returns a `Result` instead (see "Left out").

The pipeline engine is modelled from how the stages use it.
`Pipeline.RunFrom` runs stage functions from an index until the last stage,
a `stop()` (`Halt`) or an exception. `Pipeline.RunLoop` is the engine's
stop-flag loop, proved to compute the same result.

Modules follow the source: `ViewerStages` and `ImageOverlays` hold the
whole-frame stages, `ImageStages` holds the mini-pipeline stages, and
`Renderer` puts the pipeline together. `RgbmapStage` holds the colour-mapping
stage, `Geometry` the integer geometry, and `Scene` the viewer, canvas,
context and cache records.

The main end-to-end result is `Renderer.StandardFrameFitsWindow`. Suppose
the window centre is the anchor point and no stage is bypassed. Then, for
every flip/swap combination, only the Overlays pass can raise. A render
that finishes hands the renderer a frame exactly the size of the window,
in the renderer's channel order. In particular, Output's two `StageError`
checks can never fire on CreateBg's canvas.

Three details of the code the model keeps:

- CreateBg's canvas side is `int(sqrt(w² + h²) + 20)`
  (render.py:45-47), the floor of the diagonal plus 20.
- Merge returns on `None` input before anything else (render.py:520-522),
  so it marks the image drawn (render.py:569) only when there was
  something to merge.
- rgbmap.py's `run` calls `verify_2d` (rgbmap.py:406) before its `None`
  check (rgbmap.py:408).

Reorder takes the alpha index from the image's own channel order, even
after it has put the bands in the pipeline's order.
`ImageStages.ReorderAlphaBand` states exactly when the split-off plane is
the alpha channel.

## Model

| member | source | states |
|---|---|---|
| Arrays.Filled | ginga/util/stages/render.py:56-57 | the background is a 3-D array of the requested height and width with one band per channel of the order, in that order |
| Arrays.Verify2D | ginga/util/stages/render.py:129-130 | verify_2d passes `None` and any array of two or more dimensions, and raises a StageError naming the stage otherwise |
| Arrays.Copy | ginga/util/stages/render.py:284 | copying an array gives the same array; copying `None` gives a 0-d object array |
| Arrays.SliceLen | ginga/util/stages/render.py:236-237 | a Python slice `[start:start+count]` of a length-n axis has `count` elements when it fits, none when it starts past the end, and the `n - start` left otherwise |
| Arrays.PySlice | ginga/util/stages/render.py:237 | the slice keeps the elements from `start` on, clipped at both ends, in order |
| Arrays.Crop | ginga/util/stages/render.py:236-237 | trimming a grid keeps rows `y1..` and columns `x1..` of the original, cell for cell, clipped to the grid |
| Arrays.CropShapeMatchesGrid | ginga/util/stages/render.py:236-237 | the shape-only trim has the dimensions of the cell-level trim of a rectangular grid of that shape |
| Arrays.IndexOf | ginga/util/stages/render.py:493 | `order.index('A')` is the first position holding the character |
| Arrays.ReorderImage | ginga/util/stages/render.py:241 | reordering needs a colour (3-D) array and gives its bands in the destination order, shape otherwise kept |
| Arrays.TakeBand | ginga/util/stages/render.py:494 | `data[..., k]` is the 2-D plane holding band k's channel |
| Arrays.KeepBands | ginga/util/stages/render.py:495-498 | `data[..., 0:k]` keeps the first k bands, reshaped to 2-D when one band is left |
| Arrays.InsertZeroBand | ginga/util/stages/render.py:551-554 | inserting an empty band at index k works exactly when k is at most the depth and adds one band there |
| Arrays.SetBand | ginga/util/stages/render.py:556-557 | writing a plane into band k works exactly when k is a band and the plane has the array's height and width, and only band k changes |
| Geometry.Isqrt | ginga/util/stages/render.py:47 | the truncated square root r satisfies r² ≤ n < (r+1)² |
| Geometry.IsqrtAtLeast | ginga/util/stages/render.py:47 | the root of n is at least any w with w² ≤ n |
| Geometry.IsqrtUnique | ginga/util/stages/render.py:47 | only one number brackets n that way, so the side CreateBg builds is determined by the window |
| Geometry.CanvasSide | ginga/util/stages/render.py:46-48 | the side is the floor of the window diagonal plus 20, so it exceeds both window dimensions by at least 20 |
| Geometry.FlipSwapOffset | ginga/util/stages/render.py:141-146 | no flags leave the offset alone, and an offset inside the frame stays inside the transformed frame |
| Geometry.FlipSwapOffsetInverts | ginga/util/stages/render.py:141-146 | the offset update is undone by unswapping then unflipping, in both directions, so no two offsets collide |
| Geometry.FlipSwapKeepsCentre | ginga/util/stages/render.py:141-146 | on CreateBg's square canvas every flip/swap keeps each coordinate of the centre offset at `side//2` or `side - side//2` |
| Geometry.RotateDst | ginga/util/stages/render.py:186-188 | the anchor plus the offset is the window centre horizontally, and the anchor plus the height minus the offset is the centre vertically |
| Geometry.WindowInsideCanvas | ginga/util/stages/render.py:228-237 | with the window centre as anchor point, every flip/swap puts the anchor at or above-left of the origin and the window inside the canvas |
| Geometry.RoundHalfEven | ginga/util/stages/render.py:536-537 | numpy rounding of half-integers: exact on integers, otherwise within one half and to the even neighbour |
| Geometry.MergeAnchor | ginga/util/stages/render.py:535-537 | the composite position is the buffer centre plus the offset, within half a pixel, and exact for even dimensions |
| Geometry.ClipAxis | ginga/util/stages/render.py:402-408 | the clipped span is a sub-span of the image span, placed where the image is, inside the visible range, and the largest such |
| Geometry.MergeClip | ginga/util/stages/render.py:402-408 | the clipped rectangle on each axis is the largest part of the image inside the padded draw rectangle |
| Scene.Send | ginga/util/stages/render.py:60 | publishing a result sets the stage's output and leaves every other stage's output alone |
| ViewerStages.CreateBg | ginga/util/stages/render.py:31-60 | only valid as first stage (StageError otherwise); bypassed it publishes `None`; otherwise a square 3-D canvas in the state's order, side as above, org_dim and org_off its size and centre, nothing else set |
| ViewerStages.IccProf | ginga/util/stages/render.py:74-114 | the data passes through; the recorded profile is the working one when bypassed, without colour management or with a profile missing, and the output one otherwise |
| ViewerStages.SwapAxes | ginga/util/stages/render.py:139-140 | swapping axes exchanges height and width |
| ViewerStages.FlipSwap | ginga/util/stages/render.py:128-149 | succeeds exactly when the data checks out and org_off is set; the offset is org_off when bypassed or untransformed, else the flip/swap update on the input's dimensions; dimensions are exchanged exactly when swapping |
| ViewerStages.Rotate | ginga/util/stages/render.py:163-197 | succeeds exactly when there is 2-D data and an offset; the anchor satisfies the centre equations on the post-transform height; the shape is kept |
| ViewerStages.Output | ginga/util/stages/render.py:212-246 | a StageError exactly when the frame is narrower or shorter than the window or the anchor is right of or below the origin; the trim is at most the window and exactly it when the window fits past the anchor; channels in the renderer's order; bypassed, data untouched and out_order is the state's order |
| ImageStages.ChooseInterp | ginga/util/stages/render.py:423-428 | the image's interpolation, else the viewer's setting, else 'basic'; an unsupported method becomes 'basic'; Scale does not call it, since the method only changes pixel values and the model keeps shapes only |
| ImageStages.ScaleClip | ginga/util/stages/render.py:383-405 | the cut-out lies inside the image, keeps the image's placement, and its destination span lies inside the draw rectangle padded by one |
| ImageStages.Scale | ginga/util/stages/render.py:366-449 | no image publishes `None`; an empty clip publishes `None`, marks the image invisible and stops only this run without raising; otherwise it is visible, the cut-out has the clipped size times both scales, and the offset is the scaled distance from the pan position |
| ImageStages.Reorder | ginga/util/stages/render.py:469-503 | `None` passes; RGB images not in the pipeline's order are reordered; with an alpha channel the band at the image order's alpha index is split off into the context and only the bands before it are kept, 2-D when one is left; without one alpha is `None`; it succeeds exactly when the data is at least 2-D, the image is there, the data is 3-D if it is reordered or has alpha, and the alpha index lies within the bands |
| ImageStages.ReorderAlphaBand | ginga/util/stages/render.py:482-495 | the split-off plane is the alpha channel exactly when no reordering happened or both orders put alpha at the same index |
| ImageStages.ReorderSplitsAlpha | ginga/util/stages/render.py:486-503 | on a colour image in the pipeline's order with alpha last, Reorder succeeds, hands on the colour bands and keeps the alpha plane |
| ImageStages.MergeRestoresAlpha | ginga/util/stages/render.py:518-569 | Merge then succeeds, puts the alpha plane back last and composites one layer in the pipeline's channel order at the rounded anchor |
| ImageStages.AlphaRoundTrip | ginga/util/stages/render.py:486-557 | for a colour image already in the pipeline's order with alpha last, with a 3-D buffer and an offset, Reorder and then Merge both succeed and the composited image has the original channels |
| ImageStages.PlainAlphaImageComposited | ginga/util/stages/render.py:366-569 | a plain colour image with alpha last and something on screen runs Scale, Reorder and Merge without raising and adds exactly one layer, for this object, of the scaled clip's size, at the rounded anchor, in the pipeline's order, and is marked visible and drawn |
| ImageStages.CutsSetupFor | ginga/util/stages/render.py:598-615 | vmin is 0, vmax the colour table size minus one, and the image's own table, autocuts and cut levels override the viewer's |
| ImageStages.Cuts | ginga/util/stages/render.py:589-625 | `None` passes; otherwise the shape and bands are kept and the values become unsigned within [vmin, vmax] |
| ImageStages.RgbMap | ginga/util/stages/render.py:642-664 | `None` passes; otherwise the result has the input's height and width and one byte band per channel of the pipeline order |
| ImageStages.ImageOffScreen | ginga/util/stages/render.py:407-413 | an image entirely off screen stops its pipeline at Scale without raising, leaves the buffer alone and is marked invisible |
| ImageStages.NormImageComposited | ginga/util/stages/render.py:366-664 | a value-mapped 2-D image with something on screen runs all five stages and adds exactly one layer, for this object, of the scaled clip's size, at the rounded anchor of its offset, in the pipeline's channel order, and is marked visible and drawn |
| ImageStages.RestoreAlpha | ginga/util/stages/render.py:545-557 | with an alpha plane and 'A' in the order, the plane lands at the order's alpha index, after an empty band is inserted there unless the array has four bands; otherwise the array is unchanged; with an alpha plane it succeeds exactly when the alpha index fits (at most the depth when a band is inserted, below four otherwise) and the plane has the array's height and width |
| ImageStages.Merge | ginga/util/stages/render.py:518-569 | nothing on `None`; a StageError exactly when the array is not 3-D with at least three bands; otherwise one layer is composited at `MergeAnchor`, the half-to-even rounding of the buffer centre plus the offset, the buffer is otherwise unchanged and the image is marked drawn; on data it succeeds exactly when the array is 3-D with at least three bands, the image, offset and a 3-D buffer are there, and the alpha can be put back |
| ImageOverlays.RestartIndex | ginga/util/stages/render.py:317-351 | level ≤ 0 restarts at Scale; a cached invisible image is skipped; otherwise a plain image restarts at Reorder and a value-mapped one at Cuts (≤ 1), RGBMap (≤ 2) or Merge |
| ImageOverlays.RestartMonotone | ginga/util/stages/render.py:336-351 | a higher level never restarts an image earlier |
| ImageOverlays.MiniStepKeepsDst | ginga/util/stages/render.py:518-569 | no mini-pipeline stage changes the destination buffer except by adding composited layers |
| ImageStages.MiniStages | ginga/util/stages/render.py:306-332 | a plain image's mini-pipeline is Scale, Reorder, Merge; a normalised image's is Scale, Reorder, Cuts, RGBMap, Merge |
| ImageOverlays.PipeFor | ginga/util/stages/render.py:304-310 | the cached mini-pipeline is reused; a new one is built for the image's kind only when the cache has none |
| ImageOverlays.PrepareImage | ginga/util/stages/render.py:302-351 | the image's pipeline (cached, else new) gets the level, image, state and buffer; a skipped image only stores it; otherwise the result is exactly the mini-pipeline run from the restart stage, its raise the result's raise, its buffer the new buffer and its context kept in the cache; a cached pipeline too short for the restart stage raises; the main context changes only by layers added to the buffer |
| ImageOverlays.PrepareNormImageDraws | ginga/util/stages/render.py:324-340 | at level 0 a value-mapped 2-D image with something on screen adds exactly one layer, for this object and in the pipeline's order, and is recorded visible and drawn |
| ImageOverlays.OffScreenThenSkipped | ginga/util/stages/render.py:302-322 | an image off screen at level 0 adds nothing and is recorded invisible, and at every higher level it is then skipped |
| ImageOverlays.PrepareAllAppend | ginga/util/stages/render.py:296-300 | preparing two runs of images in a row is preparing the first, then, unless it raised, the second |
| ImageOverlays.WalkObjs | ginga/util/stages/render.py:292-300 | walking the canvas changes only the destination buffer and only by added layers |
| ImageOverlays.WalkObjsPreparesImages | ginga/util/stages/render.py:292-300 | the walk prepares exactly the images of the objects, depth first with containers' images in place, stopping at the first raise |
| ImageOverlays.Overlays | ginga/util/stages/render.py:271-290 | at level ≥ 3.0 with an earlier result it republishes that result; at any lower level, fractional ones included, a background that is not 2-D is a StageError, and the result is a copy of the background with layers added |
| ImageOverlays.FractionalLevelRebuilds | ginga/util/stages/render.py:274-351 | at a level strictly between 2 and 3 the frame is rebuilt from the background, while every visible value-mapped image restarts only at Merge and every visible plain image at Reorder |
| ImageOverlays.OverlaysPreparesImages | ginga/util/stages/render.py:271-290 | unless an earlier result is reused, a 2-D background is copied, every image of the canvas is prepared onto the copy depth first, and the copy is published; a raise while preparing is the stage's raise |
| Renderer.Render | ginga/util/stages/render.py:31-246 | the stages from the start index run in order, and with no Overlays stage in the list the image caches come out unchanged |
| Renderer.TopStep | ginga/util/stages/render.py:31-246 | no whole-frame stage stops the pipeline, and only Overlays touches the image caches |
| Renderer.RenderRunsToEnd | ginga/util/stages/render.py:31-246 | a render that does not raise runs every stage from its starting point |
| Renderer.CreateBgFrames | ginga/util/stages/render.py:31-60 | CreateBg in first place publishes a 3-D frame of the canvas side with its centre as org_off |
| Renderer.OverlaysFrames | ginga/util/stages/render.py:271-290 | the Overlays result keeps the frame size and org_off |
| Renderer.IccFrames | ginga/util/stages/render.py:74-114 | ICCProf cannot fail on that frame and keeps it |
| Renderer.FlipSwapFrames | ginga/util/stages/render.py:128-149 | FlipSwap cannot fail on that square frame and sets the flip/swap update of the centre as offset |
| Renderer.RotateFrames | ginga/util/stages/render.py:163-197 | Rotate cannot fail there and sets the anchor from the window centre and that offset |
| Renderer.OutputFitsWindow | ginga/util/stages/render.py:224-245 | with that anchor Output succeeds and publishes exactly the window's size in the renderer's order |
| Renderer.StandardFrameFitsWindow | ginga/util/stages/render.py:186-237 | the standard pipeline fails only in Overlays, and a finished render is exactly window-sized in the renderer's order, for every flip/swap |
| Pipeline.RunFrom | ginga/util/stages/render.py:410-413 | the stages that ran are consecutive from the start index; an exception ends the run at the raising stage; a run that ends early without one ended at a stage that stopped |
| Pipeline.RunLoop | ginga/util/stages/render.py:410-413 | the stop-flag loop returns what RunFrom defines |
| Pipeline.RunPreserves | ginga/util/stages/render.py:343-351 | a property every stage preserves holds of the result of any run |
| Pipeline.RunFromNext | ginga/util/stages/render.py:343-351 | a stage that hands the state on continues the run with the next stage |
| Pipeline.RunThrough | ginga/util/stages/render.py:339-340 | when every stage from the start hands the state on, the run reaches the end and returns the last state |
| RgbmapStage.Init | ginga/util/stages/rgbmap.py:17-32 | a new stage holds linear, gray, ramp, not inverted, no rotation, contrast and brightness at 50 percent, with no GUI and no mapper |
| RgbmapStage.Put | ginga/util/stages/rgbmap.py:206-280 | storing a parameter sets that field and no other |
| RgbmapStage.SetParam | ginga/util/stages/rgbmap.py:206-280 | the field is always stored first; without the GUI nothing else changes; with it a name must be in its list, then the widget and then the mapper are updated, and a missing name or mapper raises with the earlier steps kept |
| RgbmapStage.ApplyDict | ginga/util/stages/rgbmap.py:286-291 | applying an action dictionary sets exactly the fields it names |
| RgbmapStage.RecordedChangeUndoable | ginga/util/stages/rgbmap.py:286-291 | an action recording the old and new values of exactly the fields a change touched undoes and redoes that change |
| RgbmapStage.ParamCb | ginga/util/stages/rgbmap.py:282-377 | the value is set; on success exactly one action from the old value to the stored value is logged, then a re-run from this stage; a raising setter logs nothing |
| RgbmapStage.ParamCbUndoable | ginga/util/stages/rgbmap.py:282-377 | every single-parameter callback's action, applied backwards, restores the parameters before it, and applied forwards, those after it |
| RgbmapStage.PyIndex | ginga/util/stages/rgbmap.py:286 | Python list indexing: defined exactly for -len ≤ i < len, negative indices counting from the end |
| RgbmapStage.SelectCb | ginga/util/stages/rgbmap.py:282-319 | an index out of range raises with nothing changed; otherwise the selected name is set as by any parameter callback |
| RgbmapStage.SetCmapCb | ginga/util/stages/rgbmap.py:282-293 | the colour map becomes the registry's entry at the index, nothing else changes |
| RgbmapStage.SetImapCb | ginga/util/stages/rgbmap.py:295-306 | the intensity map becomes the registry's entry at the index, nothing else changes |
| RgbmapStage.SetCalgCb | ginga/util/stages/rgbmap.py:308-319 | the distribution becomes the stage's own list's entry at the index, nothing else changes |
| RgbmapStage.RotateCmapCb | ginga/util/stages/rgbmap.py:321-330 | the rotation becomes the given percent, nothing else changes |
| RgbmapStage.InvertCmapCb | ginga/util/stages/rgbmap.py:332-340 | the inversion flag becomes the given one, nothing else changes |
| RgbmapStage.ContrastSetCb | ginga/util/stages/rgbmap.py:357-366 | the contrast becomes the given percent, nothing else changes |
| RgbmapStage.BrightnessSetCb | ginga/util/stages/rgbmap.py:368-377 | the brightness becomes the given percent, nothing else changes |
| RgbmapStage.UnrotateCmapCb | ginga/util/stages/rgbmap.py:342-343 | the rotation returns to its initial 0, logged with the previous rotation as old value |
| RgbmapStage.RestoreContrastCb | ginga/util/stages/rgbmap.py:379-380 | the contrast returns to its initial 50 percent, logged with the previous contrast as old value |
| RgbmapStage.RestoreBrightnessCb | ginga/util/stages/rgbmap.py:382-383 | the brightness returns to its initial 50 percent, logged with the previous brightness as old value |
| RgbmapStage.SetDefaultCmaps | ginga/util/stages/rgbmap.py:345-355 | the action from both old names to gray and ramp is logged before either is set, and stays logged if a setter raises; on success both names are the defaults and a re-run follows |
| RgbmapStage.SetDefaultDistmaps | ginga/util/stages/rgbmap.py:385-393 | the action from the old distribution to linear is logged first; the distribution becomes linear |
| RgbmapStage.SetDefaultCmapsUndoable | ginga/util/stages/rgbmap.py:345-355 | the reset's action undoes and redoes it |
| RgbmapStage.SetDefaultDistmapsUndoable | ginga/util/stages/rgbmap.py:385-393 | the reset's action undoes and redoes it |
| RgbmapStage.ResetsRestoreDefaults | ginga/util/stages/rgbmap.py:26-32 | the two resets and three restores together give back the initial parameters, except the inversion flag |
| RgbmapStage.Run | ginga/util/stages/rgbmap.py:404-418 | a StageError when the input is not 2-D; bypassed or on `None` the input passes unchanged; otherwise an RGB byte image of the input's height and width |
| RgbmapStage.RerunAfterCallback | ginga/util/stages/rgbmap.py:404-418 | the re-run a successful callback asks for raises exactly when the run before did, and publishes an array of the same shape, bands and dtype; only the colours, which are not modelled, change |
| RgbmapStage.RunAgreesWithOverlayRgbMap | ginga/util/stages/rgbmap.py:404-418 | for the same 2-D data and a pipeline in "RGB" order, this stage and the overlay pass's RGBMap stage (render.py:642-664) publish arrays of the same shape, bands and dtype |
| RgbmapStage.GetState | ginga/util/stages/rgbmap.py:423-425 | the state dictionary holds exactly the three map names |
| RgbmapStage.ExportAsDict | ginga/util/stages/rgbmap.py:427-430 | the export is the base export plus the three map names, which win over base entries |
| RgbmapStage.ImportField | ginga/util/stages/rgbmap.py:432-436 | a missing key raises KeyError with nothing changed; a name goes through the setter |
| RgbmapStage.ImportFromDict | ginga/util/stages/rgbmap.py:432-436 | only the three map names can change; a missing distribution name raises before anything changes |
| RgbmapStage.ExportImportRoundTrip | ginga/util/stages/rgbmap.py:423-436 | importing an export into a stage without GUI succeeds and restores the three names, other parameters untouched |
| RgbmapStage.ExportImportWithGui | ginga/util/stages/rgbmap.py:423-436 | with the GUI up the import succeeds exactly when each name is offered by its selector and a mapper exists, and then restores the names |

## Left out

- Pixel values: background colour, profile conversion, rotation and
  flipping of pixels, scaling, cut levels, colour mapping and alpha
  blending are not computed. Only shapes, channel tags, dtypes, value
  ranges and the list of composited layers are tracked.
- Helpers from trcalc, autocuts and rgb_cms are not part of this model.
  Their uses get contracts on shape and channel order only: `make_filled_array`,
  `transform`, `rotate_clip`, `get_scaled_cutout_basic`, `reorder_image`,
  `overlay_image`, `array_convert`, `cut_levels` and `convert_profile_fromto`.
  `calc_image_merge_clip` is replaced by `Geometry.MergeClip`, an integer
  interval clip with its own containment contract.
- Floating point: scales, pan position, draw rectangle, data offset and the
  rotation angle are integers. The invalidation level is an exact real.
  The canvas side uses an exact integer square root where the code takes
  a floating-point root of the summed squares and truncates it after adding
  the slop (render.py:47); the two agree unless the float root rounds
  across an integer. `np.isclose(rot, 0)` becomes the viewer flag
  `rotated`. Contrast, brightness and colour-map rotation are integer
  percent.
- ViewerStages.IccProf: a failed profile conversion cannot be told apart
  from a successful one, because pixel values are not modelled. The
  recorded profile is the output profile in both cases, as in the code.
- ginga/util/pipeline.py and stages/base.py are not part of this model.
  `run_from`, `stop`, `send`, `get`, `set`, `push`, `verify_2d` and
  `StageAction` are modelled from how the stages use them. Applying an
  action's dictionary (`RgbmapStage.ApplyDict`) stands in for undo and redo.
- The base stage's export and import: `RgbmapStage.ExportAsDict` takes the
  base export as a parameter, and the base import's effect is not modelled.
- RgbmapStage.ImportFromDict: a dictionary value that is not a string is
  not stored. The model raises there, because parameters are typed.
- GUI construction and widgets, the ColorBar, `build_gui`,
  `copy_from_viewer_cb`, and the `gui_do_oneshot` debouncing in
  `rgbmap_changed_cb`: these belong to the GUI toolkit and its event loop.
  A widget is modelled only as the value the setter hands it.
- RgbmapStage.SetParam: a percent widget is modelled as showing the
  integer percent `v`. The code shows `int(pct * 100)` of the stored
  `pct = v / 100.0`, and floating-point rounding makes that `v - 1` for
  some values (28 for 29, 56 for 57, 57 for 58). Floats are not modelled.
- ImageOverlays.PrepareImage, ImageOverlays.Overlays and Renderer.Render
  return a `Result`, so a raise drops the changes made before it. The code
  keeps them: a newly built `cache.minipipe` (render.py:311, 335), the
  `cache.visible` flag Scale set (render.py:411, 415) and composites Merge
  already wrote into the shared buffer in place (render.py:561-569). A
  render after a raise can therefore restart from cached state the model
  does not carry over.
- The `descr` strings that format a float (`f"...: {pct}"`) are kept as
  fixed text plus the value.
- Logging, and the GTK/Qt `Plot.py` wrappers, which hold no logic.
- Which objects on the canvas have `prepare_image` is given by their kind
  in `Scene.CanvasObj`. A compound object never contains itself.

=== FILE: arrays.dfy ===
/**
 * Rasters with their pixel values abstracted away.
 *
 * A numpy array is modelled by its shape, the channel each band holds, its
 * element type, a bound on its values and the list of images composited
 * onto it.  The renderer never infers channel order from the shape, so the
 * tags are the model's record of what the Python code keeps in separate
 * `order` strings.
 */
module Arrays {
  import opened Outcomes

  datatype Dtype = UInt8 | UInt | Float | Object

  /** What is known about the element values. */
  datatype Range = Unbounded | Within(lo: int, hi: int)

  /** One image composited into a buffer: the canvas object it came from,
      where its top-left corner went, and its size and bands. */
  datatype Layer = Layer(obj: nat, x: int, y: int, ht: nat, wd: nat, tags: seq<char>)

  datatype Array = Array(shape: seq<nat>, tags: seq<char>, dtype: Dtype, range: Range, layers: seq<Layer>)
  {
    predicate AtLeast2D() { |shape| >= 2 }
    predicate Is2D() { |shape| == 2 }
    predicate Is3D() { |shape| == 3 }

    function Ht(): nat
      requires AtLeast2D()
    {
      shape[0]
    }

    function Wd(): nat
      requires AtLeast2D()
    {
      shape[1]
    }

    function Depth(): nat
      requires Is3D()
    {
      shape[2]
    }

    /** One tag per band of a colour array, one tag for a plane. */
    predicate WellTagged() {
      && (Is3D() ==> |tags| == shape[2])
      && (Is2D() ==> |tags| == 1)
      && (!AtLeast2D() ==> tags == [])
    }
  }

  /** Every array the renderer handles carries a tag for each band. */
  type Raster = a: Array | a.WellTagged() witness Array([], [], Object, Unbounded, [])

  /** A fresh colour array of the given size whose bands are `order`. */
  function Filled(ht: nat, wd: nat, order: string, dtype: Dtype): (a: Raster)
    ensures a.Is3D() && a.WellTagged() && a.Ht() == ht && a.Wd() == wd && a.tags == order
    ensures a.layers == []
  {
    Array([ht, wd, |order|], order, dtype, Unbounded, [])
  }

  /** The same array with new first two dimensions. */
  function Resized(a: Raster, ht: nat, wd: nat): (r: Raster)
    requires a.AtLeast2D()
    ensures r.AtLeast2D() && r.Ht() == ht && r.Wd() == wd
    ensures |r.shape| == |a.shape| && r.shape[2..] == a.shape[2..]
    ensures r.tags == a.tags && r.dtype == a.dtype && r.range == a.range && r.layers == a.layers
  {
    var r := a.(shape := [ht, wd] + a.shape[2..]);
    assert |r.shape| == 3 ==> r.shape[2] == a.shape[2];
    r
  }

  /** The base class's shape check: `None` is a valid "nothing to do" value,
      anything else must have at least two dimensions. */
  function Verify2D(stage: string, data: Option<Raster>): (r: Result<()>)
    ensures r.Ok? <==> data.None? || data.value.AtLeast2D()
    ensures r.Err? ==> r.error == StageError(stage, "Expecting a 2D or greater array")
  {
    if data.Some? && !data.value.AtLeast2D() then
      Err(StageError(stage, "Expecting a 2D or greater array"))
    else
      Ok(())
  }

  /** `np.copy`; a copy of `None` is a 0-d object array. */
  function Copy(data: Option<Raster>): (r: Raster)
    ensures data.Some? ==> r == data.value
    ensures data.None? ==> r.shape == [] && r.dtype == Object
  {
    match data
    case Some(a) => a
    case None => Array([], [], Object, Unbounded, [])
  }

  // ---------------------------------------------------------------------
  // Python slicing

  /** Length of `s[start:start+count]` for a sequence of length `n`. */
  function SliceLen(n: nat, start: nat, count: nat): (r: nat)
    ensures r <= count && (start + r <= n || r == 0)
    ensures start + count <= n ==> r == count
    ensures start >= n ==> r == 0
    ensures start < n < start + count ==> r == n - start
  {
    if start >= n then 0
    else if start + count <= n then count
    else n - start
  }

  /** `s[start:start+count]`: Python clips the bounds to the sequence. */
  function PySlice<T>(s: seq<T>, start: nat, count: nat): (r: seq<T>)
    ensures |r| == SliceLen(|s|, start, count)
    ensures forall j :: 0 <= j < |r| ==> start + j < |s| && r[j] == s[start + j]
  {
    if start >= |s| then [] else s[start .. start + SliceLen(|s|, start, count)]
  }

  /** `g[y1:y1+h, x1:x1+w]` on a grid of rows. */
  function Crop<T>(g: seq<seq<T>>, y1: nat, x1: nat, h: nat, w: nat): (r: seq<seq<T>>)
    ensures |r| == SliceLen(|g|, y1, h)
    ensures forall i :: 0 <= i < |r| ==>
              y1 + i < |g| && |r[i]| == SliceLen(|g[y1 + i]|, x1, w)
    ensures forall i, j :: 0 <= i < |r| && 0 <= j < |r[i]| ==>
              y1 + i < |g| && x1 + j < |g[y1 + i]| && r[i][j] == g[y1 + i][x1 + j]
  {
    var rows := PySlice(g, y1, h);
    seq(|rows|, i requires 0 <= i < |rows| => PySlice(rows[i], x1, w))
  }

  /** The shape `data[y1:y1+h, x1:x1+w]` has. */
  function CropShape(a: Raster, y1: nat, x1: nat, h: nat, w: nat): (r: Raster)
    requires a.AtLeast2D()
  {
    Resized(a, SliceLen(a.Ht(), y1, h), SliceLen(a.Wd(), x1, w))
  }

  predicate Rectangular<T>(g: seq<seq<T>>, ht: nat, wd: nat) {
    |g| == ht && forall i :: 0 <= i < |g| ==> |g[i]| == wd
  }

  /** The shape-level crop agrees with slicing an actual grid of that shape,
      and the cropped grid holds exactly the window's pixels. */
  lemma CropShapeMatchesGrid<T>(a: Raster, g: seq<seq<T>>, y1: nat, x1: nat, h: nat, w: nat)
    requires a.AtLeast2D() && Rectangular(g, a.Ht(), a.Wd())
    ensures var c := CropShape(a, y1, x1, h, w);
            Rectangular(Crop(g, y1, x1, h, w), c.Ht(), c.Wd())
  {
  }

  // ---------------------------------------------------------------------
  // Channel bookkeeping

  /** Position of the first `c` in `s`, as `str.index`. */
  function IndexOf(s: string, c: char): (i: nat)
    requires c in s
    ensures i < |s| && s[i] == c
    ensures forall j :: 0 <= j < i ==> s[j] != c
  {
    if s[0] == c then 0
    else
      assert c in s[1..] by {
        var k :| 0 <= k < |s| && s[k] == c;
        assert s[1..][k - 1] == c;
      }
      IndexOf(s[1..], c) + 1
  }

  /** trcalc.reorder_image is not part of this model.  It is taken to need a
      colour array and to return one whose bands are `dst` in that order. */
  function ReorderImage(dst: string, a: Raster, src: string): (r: Result<Raster>)
    ensures r.Ok? <==> a.Is3D()
    ensures r.Ok? ==> r.value.Is3D() && r.value.tags == dst
                      && r.value.Ht() == a.Ht() && r.value.Wd() == a.Wd()
                      && r.value.layers == a.layers && r.value.dtype == a.dtype
  {
    if !a.Is3D() then Err(Fault("reorder_image needs a 3-D array"))
    else Ok(a.(shape := [a.Ht(), a.Wd(), |dst|], tags := dst))
  }

  /** `data[..., k]` on a colour array: one plane. */
  function TakeBand(a: Raster, k: nat): (r: Raster)
    requires a.Is3D() && k < a.Depth()
    ensures r.Is2D() && r.Ht() == a.Ht() && r.Wd() == a.Wd()
    ensures r.tags == [a.tags[k]]
  {
    Array([a.Ht(), a.Wd()], [a.tags[k]], a.dtype, a.range, [])
  }

  /** `data[..., 0:n]`, collapsed to a plane when one band remains. */
  function KeepBands(a: Raster, n: nat): (r: Raster)
    requires a.Is3D() && n <= a.Depth()
    ensures r.AtLeast2D() && r.Ht() == a.Ht() && r.Wd() == a.Wd()
    ensures r.tags == a.tags[..n]
    ensures n == 1 <==> r.Is2D()
    ensures n != 1 ==> r.Is3D() && r.Depth() == n
  {
    if n == 1 then a.(shape := [a.Ht(), a.Wd()], tags := a.tags[..1])
    else a.(shape := [a.Ht(), a.Wd(), n], tags := a.tags[..n])
  }

  /** Tag of the all-zero band `np.insert` adds. */
  const ZeroBand: char := '0'

  /** `np.insert(a, k, zeros, axis=2)`: fails past the last band. */
  function InsertZeroBand(a: Raster, k: nat): (r: Result<Raster>)
    requires a.Is3D()
    ensures r.Ok? <==> k <= a.Depth()
    ensures r.Ok? ==> r.value.Is3D() && r.value.Depth() == a.Depth() + 1
                      && r.value.Ht() == a.Ht() && r.value.Wd() == a.Wd()
                      && r.value.tags == a.tags[..k] + [ZeroBand] + a.tags[k..]
  {
    if k > a.Depth() then Err(Fault("index out of bounds for axis 2"))
    else Ok(a.(shape := [a.Ht(), a.Wd(), a.Depth() + 1], tags := a.tags[..k] + [ZeroBand] + a.tags[k..]))
  }

  /** `a[..., k] = plane`: the plane must match the array's height and width. */
  function SetBand(a: Raster, k: nat, plane: Raster): (r: Result<Raster>)
    requires a.Is3D()
    ensures r.Ok? <==> k < a.Depth() && plane.Is2D() && plane.Ht() == a.Ht() && plane.Wd() == a.Wd()
    ensures r.Ok? ==> r.value.shape == a.shape && r.value.layers == a.layers
                      && r.value.tags == a.tags[k := plane.tags[0]]
  {
    if k >= a.Depth() then Err(Fault("index out of bounds for axis 2"))
    else if !(plane.Is2D() && plane.Ht() == a.Ht() && plane.Wd() == a.Wd()) then
      Err(Fault("could not broadcast alpha into band"))
    else Ok(a.(tags := a.tags[k := plane.tags[0]]))
  }
}

=== FILE: geometry.dfy ===
/**
 * The integer geometry of the viewer pipeline: the size of the background
 * canvas, how flips and swaps move the tracked offset, where the rotated
 * frame lands in the window, numpy's rounding of the merge anchor, and the
 * clipping of an overlay image against the visible data rectangle.
 */
module Geometry {

  datatype Pt = Pt(x: int, y: int)

  /** The viewer's (flip_x, flip_y, swap_xy) transform flags. */
  datatype Flips = Flips(flipX: bool, flipY: bool, swapXY: bool) {
    predicate Identity() { !flipX && !flipY && !swapXY }
  }

  lemma SquareMono(a: nat, b: nat)
    requires a <= b
    ensures a * a <= b * b
  {
    assert a * a <= a * b <= b * b;
  }

  /** Integer square root: the `int()` of a square root. */
  function Isqrt(n: nat): (r: nat)
    ensures r * r <= n < (r + 1) * (r + 1)
  {
    if n == 0 then 0
    else
      var s := Isqrt(n - 1);
      if (s + 1) * (s + 1) <= n then
        assert (s + 2) * (s + 2) == (s + 1) * (s + 1) + 2 * s + 3;
        s + 1
      else s
  }

  /** The root of a number is at least the root of any square below it. */
  lemma IsqrtAtLeast(n: nat, w: nat)
    requires w * w <= n
    ensures Isqrt(n) >= w
  {
    var r := Isqrt(n);
    if r < w {
      SquareMono(r + 1, w);
    }
  }

  /** The root is the only number whose square brackets `n` that way. */
  lemma IsqrtUnique(n: nat, r: nat)
    requires r * r <= n < (r + 1) * (r + 1)
    ensures r == Isqrt(n)
  {
    var q := Isqrt(n);
    if r < q {
      SquareMono(r + 1, q);
    } else if q < r {
      SquareMono(q + 1, r);
    }
  }

  /** Room added around the window diagonal so rotation never clips a corner. */
  const Slop: nat := 20

  /** CreateBg's square canvas side: the window diagonal, truncated, plus the slop. */
  function CanvasSide(winWd: nat, winHt: nat): (side: nat)
    ensures side >= winWd + Slop && side >= winHt + Slop
    ensures side >= Slop
    ensures (side - Slop) * (side - Slop) <= winWd * winWd + winHt * winHt
    ensures winWd * winWd + winHt * winHt < (side - Slop + 1) * (side - Slop + 1)
  {
    var n := winWd * winWd + winHt * winHt;
    IsqrtAtLeast(n, winWd);
    IsqrtAtLeast(n, winHt);
    Isqrt(n) + Slop
  }

  /** FlipSwap's update of the tracked offset on a `ht` x `wd` frame: vertical
      flip first, then horizontal flip, then the axis swap. */
  function FlipSwapOffset(ht: int, wd: int, off: Pt, f: Flips): (r: Pt)
    ensures f.Identity() ==> r == off
    ensures 0 <= off.x <= wd && 0 <= off.y <= ht ==>
              if f.swapXY then 0 <= r.x <= ht && 0 <= r.y <= wd
              else 0 <= r.x <= wd && 0 <= r.y <= ht
  {
    var y := if f.flipY then ht - off.y else off.y;
    var x := if f.flipX then wd - off.x else off.x;
    if f.swapXY then Pt(y, x) else Pt(x, y)
  }

  /** The inverse transform, on the original frame's dimensions: undo the swap,
      then the horizontal flip, then the vertical flip. */
  function UnflipSwapOffset(ht: int, wd: int, r: Pt, f: Flips): Pt {
    var p := if f.swapXY then Pt(r.y, r.x) else r;
    Pt(if f.flipX then wd - p.x else p.x, if f.flipY then ht - p.y else p.y)
  }

  /** The offset update is a bijection of the frame's points. */
  lemma FlipSwapOffsetInverts(ht: int, wd: int, off: Pt, r: Pt, f: Flips)
    ensures UnflipSwapOffset(ht, wd, FlipSwapOffset(ht, wd, off, f), f) == off
    ensures FlipSwapOffset(ht, wd, UnflipSwapOffset(ht, wd, r, f), f) == r
  {
  }

  /** On a square of side `side`, an offset at its centre stays at one of the
      two centre coordinates whatever the flags. */
  lemma FlipSwapKeepsCentre(side: nat, f: Flips)
    ensures var r := FlipSwapOffset(side, side, Pt(side / 2, side / 2), f);
            (r.x == side / 2 || r.x == side - side / 2) &&
            (r.y == side / 2 || r.y == side - side / 2)
  {
  }

  /** Rotate's destination anchor: where the frame's top-left corner goes so
      that the tracked offset, measured from the bottom edge, lands on the
      window centre. */
  function RotateDst(ctr: Pt, ht: int, off: Pt): (dst: Pt)
    ensures dst.x + off.x == ctr.x
    ensures dst.y + ht - off.y == ctr.y
  {
    Pt(ctr.x - off.x, ctr.y - (ht - off.y))
  }

  /** The window centre the renderer uses for a `winWd` x `winHt` window. */
  function WindowCentre(winWd: nat, winHt: nat): Pt {
    Pt(winWd / 2, winHt / 2)
  }

  /** With the canvas CreateBg builds and the window centre as the anchor
      point, every flip/swap combination places the window inside the
      canvas: Output's anchor check passes and its trim is exactly the
      window. */
  lemma {:induction false} WindowInsideCanvas(winWd: nat, winHt: nat, f: Flips)
    ensures var side := CanvasSide(winWd, winHt);
            var off := FlipSwapOffset(side, side, Pt(side / 2, side / 2), f);
            var dst := RotateDst(WindowCentre(winWd, winHt), side, off);
            && dst.x <= 0 && dst.y <= 0
            && -dst.x + winWd <= side && -dst.y + winHt <= side
  {
    var side := CanvasSide(winWd, winHt);
    FlipSwapKeepsCentre(side, f);
  }

  // ---------------------------------------------------------------------
  // numpy rounding

  /** `np.round(twice / 2)`: exact halves go to the even neighbour. */
  function RoundHalfEven(twice: int): (r: int)
    ensures twice % 2 == 0 ==> 2 * r == twice
    ensures twice % 2 == 1 ==> (2 * r == twice - 1 || 2 * r == twice + 1) && r % 2 == 0
  {
    var q := twice / 2;
    if twice % 2 == 0 || q % 2 == 0 then q else q + 1
  }

  /** Merge's anchor `(round(wd*0.5 + off_x), round(ht*0.5 + off_y))` in a
      `ht` x `wd` buffer, for an integer offset. */
  function MergeAnchor(ht: nat, wd: nat, off: Pt): (p: Pt)
    ensures -1 <= 2 * p.x - (wd + 2 * off.x) <= 1
    ensures -1 <= 2 * p.y - (ht + 2 * off.y) <= 1
    ensures wd % 2 == 0 ==> p.x == wd / 2 + off.x
    ensures ht % 2 == 0 ==> p.y == ht / 2 + off.y
  {
    Pt(RoundHalfEven(wd + 2 * off.x), RoundHalfEven(ht + 2 * off.y))
  }

  // ---------------------------------------------------------------------
  // Clipping an overlay against the visible data rectangle

  /** The clipped part of a source span [s1, s2] whose s1 is placed at `dst`. */
  datatype Span = Span(dst: int, s1: int, s2: int)

  /** Source position `s` of the span [s1, s2] placed at `dst` lands inside [lo, hi]. */
  predicate Shows(lo: int, hi: int, dst: int, s1: int, s2: int, s: int) {
    s1 <= s <= s2 && lo <= dst + (s - s1) <= hi
  }

  /** Clip a source span [s1, s2], placed with s1 at `dst`, to the visible
      interval [lo, hi] (trailing edge at dst + (s2 - s1)). */
  function ClipAxis(lo: int, hi: int, dst: int, s1: int, s2: int): (c: Span)
    ensures c.s1 >= s1 && c.s2 <= s2
    ensures c.dst - c.s1 == dst - s1
    ensures lo <= c.dst && c.dst + (c.s2 - c.s1) <= hi
    ensures forall s :: Shows(lo, hi, dst, s1, s2, s) ==> c.s1 <= s <= c.s2
    ensures c.s1 <= c.s2 ==> Shows(lo, hi, dst, s1, s2, c.s1) && Shows(lo, hi, dst, s1, s2, c.s2)
  {
    var ex1 := lo - dst;
    var d := if ex1 > 0 then lo else dst;
    var a1 := if ex1 > 0 then s1 + ex1 else s1;
    var ex2 := d + (s2 - a1) - hi;
    var a2 := if ex2 > 0 then s2 - ex2 else s2;
    Span(d, a1, a2)
  }

  datatype Clip = Clip(dst: Pt, a1: int, b1: int, a2: int, b2: int) {
    /** No source pixels survive in one of the directions. */
    predicate Empty() { a2 - a1 <= 0 || b2 - b1 <= 0 }
  }

  /** The visible part of a source rectangle [a1,a2] x [b1,b2] placed with its
      corner at `dst`, against the visible rectangle [lo, hi].  This stands in
      for trcalc.calc_image_merge_clip, which is not part of this model. */
  function MergeClip(lo: Pt, hi: Pt, dst: Pt, a1: int, b1: int, a2: int, b2: int): (c: Clip)
    ensures c.a1 >= a1 && c.a2 <= a2 && c.b1 >= b1 && c.b2 <= b2
    ensures c.dst.x - c.a1 == dst.x - a1 && c.dst.y - c.b1 == dst.y - b1
    ensures lo.x <= c.dst.x && c.dst.x + (c.a2 - c.a1) <= hi.x
    ensures lo.y <= c.dst.y && c.dst.y + (c.b2 - c.b1) <= hi.y
    ensures forall s :: Shows(lo.x, hi.x, dst.x, a1, a2, s) ==> c.a1 <= s <= c.a2
    ensures forall s :: Shows(lo.y, hi.y, dst.y, b1, b2, s) ==> c.b1 <= s <= c.b2
  {
    var sx := ClipAxis(lo.x, hi.x, dst.x, a1, a2);
    var sy := ClipAxis(lo.y, hi.y, dst.y, b1, b2);
    Clip(Pt(sx.dst, sy.dst), sx.s1, sy.s1, sx.s2, sy.s2)
  }
}

=== FILE: image_stages.dfy ===
/**
 * The per-image mini-pipeline stages of the overlay pass (render.py):
 *
 *   plain image:        Scale => Reorder => Merge
 *   value-mapped image: Scale => Reorder => Cuts => RGBMap => Merge
 *
 * They run in the image's own pipeline, whose context holds the image
 * (`cvsImg`), the shared destination buffer (`dstarr`), the offset Scale
 * computes and the alpha plane Reorder splits off until Merge puts it back.
 */
module ImageStages {
  import opened Outcomes
  import opened Arrays
  import opened Geometry
  import opened Scene
  import opened Pipeline

  const ScaleName: string := "viewer-scale"
  const ReorderName: string := "viewer-reorder"
  const MergeName: string := "viewer-merge-overlay"
  const CutsName: string := "viewer-cut-levels"
  const RgbMapName: string := "viewer-rgb-mapper"

  /** Padding added around the viewer's draw rectangle. */
  const Pad: int := 1

  /** The interpolation method Scale asks for: the image's own, else the
      viewer's setting, else "basic"; an unsupported one falls back to "basic". */
  function ChooseInterp(item: ImageItem, v: Viewer): (m: string)
    ensures m in v.interpMethods || m == "basic"
    ensures item.interp.Some? && item.interp.value in v.interpMethods ==> m == item.interp.value
    ensures item.interp.None? && v.interpSetting.Some? && v.interpSetting.value in v.interpMethods ==>
              m == v.interpSetting.value
    ensures m != "basic" ==>
              m == (if item.interp.Some? then item.interp.value
                    else if v.interpSetting.Some? then v.interpSetting.value else "basic")
  {
    var asked := if item.interp.Some? then item.interp.value
                 else if v.interpSetting.Some? then v.interpSetting.value
                 else "basic";
    if asked in v.interpMethods then asked else "basic"
  }

  /** The part of the image that falls inside the padded draw rectangle,
      in data coordinates. */
  function ScaleClip(v: Viewer, item: ImageItem, data: Raster): (c: Clip)
    requires data.AtLeast2D()
    ensures 0 <= c.a1 && c.a2 <= data.Wd() - 1 && 0 <= c.b1 && c.b2 <= data.Ht() - 1
    ensures c.dst.x - c.a1 == item.pos.x && c.dst.y - c.b1 == item.pos.y
    ensures v.drawLo.x - Pad <= c.dst.x && c.dst.x + (c.a2 - c.a1) <= v.drawHi.x + Pad
    ensures v.drawLo.y - Pad <= c.dst.y && c.dst.y + (c.b2 - c.b1) <= v.drawHi.y + Pad
  {
    MergeClip(Pt(v.drawLo.x - Pad, v.drawLo.y - Pad), Pt(v.drawHi.x + Pad, v.drawHi.y + Pad),
              item.pos, 0, 0, data.Wd() - 1, data.Ht() - 1)
  }

  /** Cut out the visible part of the image, scaled by the viewer's and the
      image's (integer) scale, and compute its offset from the pan position.
      An image entirely off screen is marked invisible and stops this
      image's pipeline without an error.  The interpolation method the
      code picks here (`ChooseInterp`) and the `flipy` flip only affect
      pixel values, so the shape-level cut-out does not consult them. */
  function Scale(v: Viewer, k: nat, w: World): (r: Step<World>)
    ensures w.ctx.cvsImg.None? <==> r.Fail? && r.e.Fault?
    ensures w.ctx.cvsImg.Some? && w.ctx.cvsImg.value.image.None? ==>
              var id := w.ctx.cvsImg.value.id;
              r == Next(World(Send(w.ctx, k, None), w.caches[id := CacheOf(w.caches, id)]))
    ensures w.ctx.cvsImg.Some? && w.ctx.cvsImg.value.image.Some? ==>
              var item := w.ctx.cvsImg.value;
              var data := item.image.value.data;
              && (r.Fail? <==> !data.AtLeast2D())
              && (r.Fail? ==> r.e == StageError(ScaleName, "Expecting a 2D or greater array"))
              && (data.AtLeast2D() ==>
                    var c := ScaleClip(v, item, data);
                    var cache := CacheOf(w.caches, item.id);
                    && (c.Empty() <==> r.Halt?)
                    && (c.Empty() ==> r.s == World(Send(w.ctx, k, None), w.caches[item.id := cache.(visible := false)]))
                    && (!c.Empty() ==>
                          && r.Next?
                          && r.s.caches == w.caches[item.id := cache.(visible := true)]
                          && GetData(r.s.ctx, Some(k)).Some?
                          && var out := GetData(r.s.ctx, Some(k)).value;
                          && out.AtLeast2D() && out.tags == data.tags
                          && |out.shape| == |data.shape| && out.shape[2..] == data.shape[2..]
                          && out.Wd() == (c.a2 - c.a1 + 1) * v.scaleX * item.scaleX
                          && out.Ht() == (c.b2 - c.b1 + 1) * v.scaleY * item.scaleY
                          && r.s.ctx == Send(w.ctx, k, Some(out)).(offset := r.s.ctx.offset)
                          && r.s.ctx.offset == Some(Pt((c.dst.x - v.pan.x - v.dataOff) * v.scaleX,
                                                      (c.dst.y - v.pan.y - v.dataOff) * v.scaleY))))
  {
    match w.ctx.cvsImg
    case None => Fail(Fault("'NoneType' object has no attribute 'get_cache'"))
    case Some(item) =>
      var cache := CacheOf(w.caches, item.id);
      var caches := w.caches[item.id := cache];
      if item.image.None? then Next(World(Send(w.ctx, k, None), caches))
      else
        var data := item.image.value.data;
        if !data.AtLeast2D() then Fail(StageError(ScaleName, "Expecting a 2D or greater array"))
        else
          var c := ScaleClip(v, item, data);
          if c.Empty() then
            Halt(World(Send(w.ctx, k, None), caches[item.id := cache.(visible := false)]))
          else
            var cutWd: nat := c.a2 - c.a1 + 1;
            var cutHt: nat := c.b2 - c.b1 + 1;
            var out := Resized(data, cutHt * v.scaleY * item.scaleY, cutWd * v.scaleX * item.scaleX);
            var panX := v.pan.x + v.dataOff;
            var panY := v.pan.y + v.dataOff;
            var off := Pt((c.dst.x - panX) * v.scaleX, (c.dst.y - panY) * v.scaleY);
            Next(World(Send(w.ctx, k, Some(out)).(offset := Some(off)),
                       caches[item.id := cache.(visible := true)]))
  }

  /** Put the bands in the pipeline's order (RGB images only) and split off
      the alpha band, if the image has one, for Merge to put back. */
  function Reorder(k: nat, w: World): (r: Step<World>)
    ensures GetData(w.ctx, Prev(k)).None? ==> r == Next(w.(ctx := Send(w.ctx, k, None)))
    ensures r.Halt? ==> false
    ensures var data := GetData(w.ctx, Prev(k));
            data.Some? ==>
              (r.Next? <==>
                 && data.value.AtLeast2D()
                 && w.ctx.cvsImg.Some? && w.ctx.cvsImg.value.image.Some?
                 && var src := w.ctx.cvsImg.value.image.value;
                 && var reorders := src.isRgb && src.order != w.ctx.state.order;
                 && (reorders ==> data.value.Is3D())
                 && ('A' in src.order ==>
                       && data.value.Is3D()
                       && IndexOf(src.order, 'A') < (if reorders then |w.ctx.state.order| else data.value.Depth())))
    ensures r.Next? ==>
              && r.s.caches == w.caches
              && r.s.ctx == Send(w.ctx, k, GetData(r.s.ctx, Some(k))).(alpha := r.s.ctx.alpha)
    ensures r.Next? && GetData(w.ctx, Prev(k)).Some? ==>
              && w.ctx.cvsImg.Some? && w.ctx.cvsImg.value.image.Some?
              && GetData(w.ctx, Prev(k)).value.AtLeast2D()
              && GetData(r.s.ctx, Some(k)).Some?
              && GetData(r.s.ctx, Some(k)).value.AtLeast2D()
              && var src := w.ctx.cvsImg.value.image.value;
              && var a := GetData(w.ctx, Prev(k)).value;
              && var tags := if src.isRgb && src.order != w.ctx.state.order then w.ctx.state.order else a.tags;
              && var out := GetData(r.s.ctx, Some(k)).value;
              && out.Ht() == a.Ht() && out.Wd() == a.Wd()
              && ('A' !in src.order ==> r.s.ctx.alpha.None? && out.tags == tags)
              && ('A' in src.order ==>
                    var ai := IndexOf(src.order, 'A');
                    && ai < |tags|
                    && r.s.ctx.alpha == Some(Array([a.Ht(), a.Wd()], [tags[ai]], a.dtype, a.range, []))
                    && out.tags == tags[..ai]
                    && (ai == 1 <==> out.Is2D()))
  {
    var data := GetData(w.ctx, Prev(k));
    if data.None? then Next(w.(ctx := Send(w.ctx, k, None)))
    else if !data.value.AtLeast2D() then Fail(StageError(ReorderName, "Expecting a 2D or greater array"))
    else if w.ctx.cvsImg.None? || w.ctx.cvsImg.value.image.None? then
      Fail(Fault("'NoneType' object has no attribute 'get_order'"))
    else
      var src := w.ctx.cvsImg.value.image.value;
      var st := w.ctx.state;
      var reordered := if src.isRgb && src.order != st.order then ReorderImage(st.order, data.value, src.order)
                       else Ok(data.value);
      if reordered.Err? then Fail(reordered.error)
      else
        var a := reordered.value;
        if 'A' !in src.order then Next(w.(ctx := Send(w.ctx, k, Some(a)).(alpha := None)))
        else
          var ai := IndexOf(src.order, 'A');
          if !a.Is3D() || ai >= a.Depth() then Fail(Fault("index out of bounds for axis 2"))
          else Next(w.(ctx := Send(w.ctx, k, Some(KeepBands(a, ai))).(alpha := Some(TakeBand(a, ai)))))
  }

  /** Which band Reorder splits off as alpha.  The index comes from the
      image's own channel order even after the bands were put in the
      pipeline's order, so the split-off plane is the alpha channel exactly
      when no reordering happened or both orders put alpha at the same place. */
  lemma ReorderAlphaBand(k: nat, w: World)
    requires GetData(w.ctx, Prev(k)).Some? && w.ctx.cvsImg.Some? && w.ctx.cvsImg.value.image.Some?
    requires var src := w.ctx.cvsImg.value.image.value;
             && GetData(w.ctx, Prev(k)).value.tags == src.order
             && 'A' in src.order
    requires Reorder(k, w).Next?
    ensures var src := w.ctx.cvsImg.value.image.value;
            var order := w.ctx.state.order;
            var reordered := src.isRgb && src.order != order;
            var ai := IndexOf(src.order, 'A');
            && Reorder(k, w).s.ctx.alpha.Some?
            && (Reorder(k, w).s.ctx.alpha.value.tags == ['A'] <==> !reordered || order[ai] == 'A')
  {
  }

  /** The cut levels, colour table size and autocuts object Cuts uses: the
      image's own when it has them, else the viewer's. */
  datatype CutsSetup = CutsSetup(levels: Levels, vmin: int, vmax: int, autocuts: nat)

  function CutsSetupFor(item: ImageItem, v: Viewer): (c: CutsSetup)
    ensures c.vmin == 0
    ensures c.vmax == (if item.hashSize.Some? then item.hashSize.value else v.hashSize) - 1
    ensures c.levels == (if item.cuts.Some? then item.cuts.value else v.cuts)
    ensures c.autocuts == (if item.autocuts.Some? then item.autocuts.value else v.autocuts)
  {
    var size := if item.hashSize.Some? then item.hashSize.value else v.hashSize;
    var ac := if item.autocuts.Some? then item.autocuts.value else v.autocuts;
    var lv := if item.cuts.Some? then item.cuts.value else v.cuts;
    CutsSetup(lv, 0, size - 1, ac)
  }

  /** Map the data through the cut levels onto colour-table indices: the
      shape and bands stay, the values become unsigned and lie in [vmin, vmax]. */
  function Cuts(v: Viewer, k: nat, w: World): (r: Step<World>)
    ensures GetData(w.ctx, Prev(k)).None? ==> r == Next(w.(ctx := Send(w.ctx, k, None)))
    ensures r.Halt? ==> false
    ensures r.Next? ==> r.s == w.(ctx := Send(w.ctx, k, GetData(r.s.ctx, Some(k))))
    ensures r.Next? && GetData(w.ctx, Prev(k)).Some? ==>
              && w.ctx.cvsImg.Some?
              && var a := GetData(w.ctx, Prev(k)).value;
              && var c := CutsSetupFor(w.ctx.cvsImg.value, v);
              && GetData(r.s.ctx, Some(k)).Some?
              && var out := GetData(r.s.ctx, Some(k)).value;
              && out.shape == a.shape && out.tags == a.tags
              && out.dtype == UInt && out.range == Within(c.vmin, c.vmax)
  {
    var data := GetData(w.ctx, Prev(k));
    if data.None? then Next(w.(ctx := Send(w.ctx, k, None)))
    else if !data.value.AtLeast2D() then Fail(StageError(CutsName, "Expecting a 2D or greater array"))
    else if w.ctx.cvsImg.None? then Fail(Fault("'NoneType' object has no attribute 'rgbmap'"))
    else
      var c := CutsSetupFor(w.ctx.cvsImg.value, v);
      var out := data.value.(dtype := UInt, range := Within(c.vmin, c.vmax));
      Next(w.(ctx := Send(w.ctx, k, Some(out))))
  }

  /** Look the indices up in the colour map (the image's own or the
      viewer's): the result has one band per channel of the pipeline order. */
  function RgbMap(k: nat, w: World): (r: Step<World>)
    ensures GetData(w.ctx, Prev(k)).None? ==> r == Next(w.(ctx := Send(w.ctx, k, None)))
    ensures r.Halt? ==> false
    ensures r.Next? ==> r.s == w.(ctx := Send(w.ctx, k, GetData(r.s.ctx, Some(k))))
    ensures r.Next? && GetData(w.ctx, Prev(k)).Some? ==>
              var a := GetData(w.ctx, Prev(k)).value;
              && a.AtLeast2D()
              && GetData(r.s.ctx, Some(k)).Some?
              && var out := GetData(r.s.ctx, Some(k)).value;
              && out.Is3D() && out.Ht() == a.Ht() && out.Wd() == a.Wd()
              && out.tags == w.ctx.state.order && out.dtype == UInt8
  {
    var data := GetData(w.ctx, Prev(k));
    if data.None? then Next(w.(ctx := Send(w.ctx, k, None)))
    else if !data.value.AtLeast2D() then Fail(StageError(RgbMapName, "Expecting a 2D or greater array"))
    else if w.ctx.cvsImg.None? then Fail(Fault("'NoneType' object has no attribute 'rgbmap'"))
    else
      var a := data.value;
      Next(w.(ctx := Send(w.ctx, k, Some(Filled(a.Ht(), a.Wd(), w.ctx.state.order, UInt8)))))
  }

  /** Put a split-off alpha plane back at the pipeline order's alpha index,
      inserting an empty band first unless the array has exactly four. */
  function RestoreAlpha(rgb: Raster, order: string, alpha: Option<Raster>): (r: Result<Raster>)
    requires rgb.Is3D()
    ensures alpha.None? || 'A' !in order ==> r == Ok(rgb)
    ensures alpha.Some? && 'A' in order ==>
              var ai := IndexOf(order, 'A');
              (r.Ok? <==>
                 && (if rgb.Depth() != 4 then ai <= rgb.Depth() else ai < 4)
                 && alpha.value.Is2D() && alpha.value.Ht() == rgb.Ht() && alpha.value.Wd() == rgb.Wd())
    ensures r.Ok? ==> r.value.Is3D() && r.value.Ht() == rgb.Ht() && r.value.Wd() == rgb.Wd()
                      && r.value.layers == rgb.layers
    ensures r.Ok? && alpha.Some? && 'A' in order ==>
              var ai := IndexOf(order, 'A');
              && r.value.Depth() == (if rgb.Depth() == 4 then 4 else rgb.Depth() + 1)
              && alpha.value.Is2D()
              && ai < r.value.Depth()
              && r.value.tags[ai] == alpha.value.tags[0]
              && (rgb.Depth() != 4 ==>
                    r.value.tags == rgb.tags[..ai] + [alpha.value.tags[0]] + rgb.tags[ai..])
  {
    if alpha.None? || 'A' !in order then Ok(rgb)
    else
      var ai := IndexOf(order, 'A');
      var widened :- if rgb.Depth() != 4 then InsertZeroBand(rgb, ai) else Ok(rgb);
      SetBand(widened, ai, alpha.value)
  }

  /** Composite the image into the shared buffer at the centre of the buffer
      plus the offset, alpha restored, and mark the object drawn. */
  function Merge(k: nat, w: World): (r: Step<World>)
    ensures GetData(w.ctx, Prev(k)).None? ==> r == Next(w)
    ensures r.Halt? ==> false
    ensures var data := GetData(w.ctx, Prev(k));
            (r.Fail? && r.e.StageError?) <==>
              data.Some? && (!data.value.AtLeast2D() || !data.value.Is3D() || data.value.Depth() < 3)
    ensures var data := GetData(w.ctx, Prev(k));
            data.Some? ==>
              (r.Next? <==>
                 && data.value.Is3D() && data.value.Depth() >= 3
                 && w.ctx.cvsImg.Some? && w.ctx.offset.Some?
                 && w.ctx.dstarr.Some? && w.ctx.dstarr.value.Is3D()
                 && RestoreAlpha(data.value, w.ctx.state.order, w.ctx.alpha).Ok?)
    ensures r.Next? && GetData(w.ctx, Prev(k)).Some? ==>
              && w.ctx.cvsImg.Some? && w.ctx.dstarr.Some? && w.ctx.offset.Some?
              && var rgb := GetData(w.ctx, Prev(k)).value;
              && var item := w.ctx.cvsImg.value;
              && var d := w.ctx.dstarr.value;
              && var off := w.ctx.offset.value;
              && rgb.Is3D() && rgb.Depth() >= 3 && d.Is3D()
              && r.s.ctx == w.ctx.(dstarr := r.s.ctx.dstarr)
              && r.s.caches == w.caches[item.id := CacheOf(w.caches, item.id).(drawn := true)]
              && r.s.ctx.dstarr.Some?
              && var d' := r.s.ctx.dstarr.value;
              && d'.shape == d.shape && d'.tags == d.tags && d'.dtype == d.dtype && d'.range == d.range
              && |d'.layers| == |d.layers| + 1 && d'.layers[..|d.layers|] == d.layers
              && var layer := d'.layers[|d.layers|];
              && layer.obj == item.id && layer.ht == rgb.Ht() && layer.wd == rgb.Wd()
              && layer.x == MergeAnchor(d.Ht(), d.Wd(), off).x
              && layer.y == MergeAnchor(d.Ht(), d.Wd(), off).y
              && -1 <= 2 * layer.x - (d.Wd() + 2 * off.x) <= 1
              && -1 <= 2 * layer.y - (d.Ht() + 2 * off.y) <= 1
              && (w.ctx.alpha.Some? && 'A' in w.ctx.state.order ==>
                    var ai := IndexOf(w.ctx.state.order, 'A');
                    w.ctx.alpha.value.Is2D() && ai < |layer.tags| && layer.tags[ai] == w.ctx.alpha.value.tags[0])
              && (w.ctx.alpha.None? || 'A' !in w.ctx.state.order ==> layer.tags == rgb.tags)
  {
    var data := GetData(w.ctx, Prev(k));
    if data.None? then Next(w)
    else if !data.value.AtLeast2D() then Fail(StageError(MergeName, "Expecting a 2D or greater array"))
    else if !data.value.Is3D() || data.value.Depth() < 3 then Fail(StageError(MergeName, "Not an RGB array"))
    else if w.ctx.cvsImg.None? || w.ctx.offset.None? || w.ctx.dstarr.None? then
      Fail(Fault("cannot unpack non-iterable NoneType object"))
    else if !w.ctx.dstarr.value.Is3D() then Fail(Fault("not enough values to unpack"))
    else
      var rgb := data.value;
      var item := w.ctx.cvsImg.value;
      var d := w.ctx.dstarr.value;
      var pos := MergeAnchor(d.Ht(), d.Wd(), w.ctx.offset.value);
      var restored := RestoreAlpha(rgb, w.ctx.state.order, w.ctx.alpha);
      if restored.Err? then Fail(restored.error)
      else
        var img := restored.value;
        var layer := Layer(item.id, pos.x, pos.y, img.Ht(), img.Wd(), img.tags);
        var d' := d.(layers := d.layers + [layer]);
        Next(World(w.ctx.(dstarr := Some(d')),
                   w.caches[item.id := CacheOf(w.caches, item.id).(drawn := true)]))
  }

  /** A channel order with alpha as its last channel and at least three
      colour channels before it.  Five channels are excluded: Merge only
      inserts an alpha band when the array does not have four bands, so the
      four colour bands left by Reorder would not be widened and the alpha
      index would fall outside them. */
  predicate AlphaLast(order: string) {
    && 'A' in order && IndexOf(order, 'A') == |order| - 1
    && |order| >= 4 && |order| != 5
  }

  /** Reorder on a colour image already in the pipeline's order with alpha
      last: the colour bands are handed on and the alpha plane is split off. */
  lemma ReorderSplitsAlpha(k: nat, x: World)
    requires x.ctx.cvsImg.Some? && x.ctx.cvsImg.value.image.Some?
    requires x.ctx.cvsImg.value.image.value.order == x.ctx.state.order
    requires AlphaLast(x.ctx.state.order)
    requires GetData(x.ctx, Prev(k)).Some?
    requires GetData(x.ctx, Prev(k)).value.Is3D() && GetData(x.ctx, Prev(k)).value.tags == x.ctx.state.order
    ensures var r := Reorder(k, x);
            var a := GetData(x.ctx, Prev(k)).value;
            var n := |x.ctx.state.order| - 1;
            && r.Next? && r.s.caches == x.caches
            && r.s.ctx == Send(x.ctx, k, GetData(r.s.ctx, Some(k))).(alpha := r.s.ctx.alpha)
            && GetData(r.s.ctx, Some(k)).Some?
            && var b := GetData(r.s.ctx, Some(k)).value;
            && b.Is3D() && b.Depth() == n && b.tags == x.ctx.state.order[..n]
            && b.Ht() == a.Ht() && b.Wd() == a.Wd()
            && r.s.ctx.alpha.Some?
            && var p := r.s.ctx.alpha.value;
            && p.Is2D() && p.Ht() == a.Ht() && p.Wd() == a.Wd() && p.tags == ['A']
  {
  }

  /** Merge puts such a split-off alpha plane back last and composites the
      image as one new layer in the pipeline's channel order. */
  lemma MergeRestoresAlpha(k: nat, x: World)
    requires AlphaLast(x.ctx.state.order)
    requires x.ctx.cvsImg.Some? && x.ctx.offset.Some? && x.ctx.dstarr.Some? && x.ctx.dstarr.value.Is3D()
    requires GetData(x.ctx, Prev(k)).Some?
    requires var b := GetData(x.ctx, Prev(k)).value;
             var n := |x.ctx.state.order| - 1;
             && b.Is3D() && b.Depth() == n && b.tags == x.ctx.state.order[..n]
             && x.ctx.alpha.Some?
             && x.ctx.alpha.value.Is2D() && x.ctx.alpha.value.Ht() == b.Ht() && x.ctx.alpha.value.Wd() == b.Wd()
             && x.ctx.alpha.value.tags == ['A']
    ensures var r := Merge(k, x);
            var b := GetData(x.ctx, Prev(k)).value;
            var d := x.ctx.dstarr.value;
            var item := x.ctx.cvsImg.value;
            var pos := MergeAnchor(d.Ht(), d.Wd(), x.ctx.offset.value);
            && r.Next? && r.s.ctx.dstarr.Some?
            && r.s.caches == x.caches[item.id := CacheOf(x.caches, item.id).(drawn := true)]
            && var d' := r.s.ctx.dstarr.value;
            && d'.shape == d.shape && d'.tags == d.tags
            && |d'.layers| == |d.layers| + 1 && d'.layers[..|d.layers|] == d.layers
            && d'.layers[|d.layers|] == Layer(item.id, pos.x, pos.y, b.Ht(), b.Wd(), x.ctx.state.order)
  {
    var b := GetData(x.ctx, Prev(k)).value;
    var order := x.ctx.state.order;
    var n := |order| - 1;
    var rs := RestoreAlpha(b, order, x.ctx.alpha);
    assert rs.Ok?;
    assert rs.value.tags == b.tags[..n] + ['A'] + b.tags[n..];
    assert b.tags[..n] + ['A'] + b.tags[n..] == order[..n] + [order[n]];
    assert order[..n] + [order[n]] == order;
  }

  /** For a colour image already in the pipeline's order with alpha as its
      last channel, Reorder and then Merge both succeed, and the alpha plane
      Reorder splits off is put back by Merge where it was: the composited
      image has the original channels. */
  lemma AlphaRoundTrip(k: nat, w: World)
    requires w.ctx.cvsImg.Some? && w.ctx.cvsImg.value.image.Some?
    requires w.ctx.cvsImg.value.image.value.order == w.ctx.state.order
    requires AlphaLast(w.ctx.state.order)
    requires GetData(w.ctx, Prev(k)).Some?
    requires GetData(w.ctx, Prev(k)).value.Is3D() && GetData(w.ctx, Prev(k)).value.tags == w.ctx.state.order
    requires w.ctx.offset.Some? && w.ctx.dstarr.Some? && w.ctx.dstarr.value.Is3D()
    ensures Reorder(k, w).Next? && Merge(k + 1, Reorder(k, w).s).Next?
    ensures var w2 := Merge(k + 1, Reorder(k, w).s).s;
            && w2.ctx.dstarr.Some? && |w2.ctx.dstarr.value.layers| > 0
            && var layers := w2.ctx.dstarr.value.layers;
            && layers[|layers| - 1].tags == w.ctx.state.order
  {
    ReorderSplitsAlpha(k, w);
    MergeRestoresAlpha(k + 1, Reorder(k, w).s);
  }

  // ---------------------------------------------------------------------
  // The mini-pipeline

  datatype MiniKind = ScaleStage | ReorderStage | CutsStage | RgbMapStage | MergeStage

  /** The stage list Overlays builds for each kind of image. */
  function MiniStages(kind: ImgKind): (s: seq<MiniKind>)
    ensures kind.PlainImage? ==> |s| == 3 && s[2] == MergeStage
    ensures kind.NormImage? ==> |s| == 5 && s[2] == CutsStage && s[3] == RgbMapStage && s[4] == MergeStage
    ensures s[0] == ScaleStage && s[1] == ReorderStage
  {
    match kind
    case PlainImage => [ScaleStage, ReorderStage, MergeStage]
    case NormImage => [ScaleStage, ReorderStage, CutsStage, RgbMapStage, MergeStage]
  }

  function MiniStep(v: Viewer, kind: ImgKind, k: nat, w: World): Step<World> {
    var stages := MiniStages(kind);
    if k >= |stages| then Fail(Fault("list index out of range"))
    else
      match stages[k]
      case ScaleStage => Scale(v, k, w)
      case ReorderStage => Reorder(k, w)
      case CutsStage => Cuts(v, k, w)
      case RgbMapStage => RgbMap(k, w)
      case MergeStage => Merge(k, w)
  }

  /** `run_from(pipe[i])` on an image's mini-pipeline. */
  function RunMini(v: Viewer, kind: ImgKind, i: nat, w: World): Trace<World> {
    RunFrom((k: nat, x: World) => MiniStep(v, kind, k, x), |MiniStages(kind)|, i, w)
  }

  /** An image Scale finds entirely off screen stops its pipeline at Scale,
      without raising: nothing reaches the buffer and the image is marked
      invisible, whichever kind of pipeline it has. */
  lemma ImageOffScreen(v: Viewer, kind: ImgKind, w: World)
    requires w.ctx.cvsImg.Some? && w.ctx.cvsImg.value.image.Some?
    requires w.ctx.cvsImg.value.image.value.data.AtLeast2D()
    requires ScaleClip(v, w.ctx.cvsImg.value, w.ctx.cvsImg.value.image.value.data).Empty()
    ensures var t := RunMini(v, kind, 0, w);
            var id := w.ctx.cvsImg.value.id;
            && t.ran == [0]
            && t.result == Ok(World(Send(w.ctx, 0, None), w.caches[id := CacheOf(w.caches, id).(visible := false)]))
            && t.result.value.ctx.dstarr == w.ctx.dstarr
            && !CacheOf(t.result.value.caches, id).visible
  {
  }

  /** The facts about a world the stages after Scale rely on: the same
      image, state, buffer and offset as `w`, and stage `k` published an
      array of the given size with one band per channel of `tags`, or a
      2-D plane when `tags` is empty. */
  predicate Carries(w: World, x: World, k: nat, ht: nat, wd: nat, tags: string) {
    && x.ctx.cvsImg.Some? && x.ctx.cvsImg == w.ctx.cvsImg && x.ctx.state == w.ctx.state
    && x.ctx.dstarr == w.ctx.dstarr && x.ctx.offset.Some? && x.ctx.alpha.None?
    && GetData(x.ctx, Some(k)).Some?
    && var a := GetData(x.ctx, Some(k)).value;
    && a.AtLeast2D() && a.Ht() == ht && a.Wd() == wd
    && (if tags == [] then a.Is2D() else a.Is3D() && a.tags == tags)
  }

  /** Scale on an image with something on screen hands on the scaled clip. */
  lemma ScaleVisible(v: Viewer, w: World)
    requires w.ctx.cvsImg.Some? && w.ctx.cvsImg.value.image.Some?
    requires w.ctx.cvsImg.value.image.value.data.Is2D()
    requires !ScaleClip(v, w.ctx.cvsImg.value, w.ctx.cvsImg.value.image.value.data).Empty()
    ensures var item := w.ctx.cvsImg.value;
            var c := ScaleClip(v, item, item.image.value.data);
            var r := Scale(v, 0, w);
            && r.Next?
            && r.s.caches == w.caches[item.id := CacheOf(w.caches, item.id).(visible := true)]
            && r.s.ctx.offset == Some(Pt((c.dst.x - v.pan.x - v.dataOff) * v.scaleX,
                                         (c.dst.y - v.pan.y - v.dataOff) * v.scaleY))
            && Carries(w.(ctx := w.ctx.(alpha := None)), r.s.(ctx := r.s.ctx.(alpha := None)), 0,
                       (c.b2 - c.b1 + 1) * v.scaleY * item.scaleY,
                       (c.a2 - c.a1 + 1) * v.scaleX * item.scaleX, [])
  {
  }

  /** Reorder, Cuts and RGBMap turn a 2-D plane without alpha into an array
      of the same size in the pipeline's channel order. */
  lemma ReorderPlane(w: World, x: World, ht: nat, wd: nat)
    requires x.ctx.cvsImg.Some? && x.ctx.cvsImg.value.image.Some?
    requires var src := x.ctx.cvsImg.value.image.value;
             'A' !in src.order && (!src.isRgb || src.order == x.ctx.state.order)
    requires Carries(w, x.(ctx := x.ctx.(alpha := None)), 0, ht, wd, [])
    ensures Reorder(1, x).Next? && Reorder(1, x).s.caches == x.caches
    ensures Carries(w, Reorder(1, x).s, 1, ht, wd, [])
  {
  }

  lemma CutsPlane(v: Viewer, w: World, x: World, ht: nat, wd: nat)
    requires Carries(w, x, 1, ht, wd, [])
    ensures Cuts(v, 2, x).Next? && Cuts(v, 2, x).s.caches == x.caches
    ensures Carries(w, Cuts(v, 2, x).s, 2, ht, wd, [])
  {
  }

  lemma RgbMapPlane(w: World, x: World, ht: nat, wd: nat)
    requires Carries(w, x, 2, ht, wd, [])
    requires |x.ctx.state.order| >= 3
    ensures RgbMap(3, x).Next? && RgbMap(3, x).s.caches == x.caches
    ensures Carries(w, RgbMap(3, x).s, 3, ht, wd, x.ctx.state.order)
  {
  }

  /** Merge composites a coloured array onto the buffer as one new layer. */
  lemma MergeColoured(w: World, x: World, ht: nat, wd: nat)
    requires |x.ctx.state.order| >= 3
    requires Carries(w, x, 3, ht, wd, x.ctx.state.order)
    requires x.ctx.dstarr.Some? && x.ctx.dstarr.value.Is3D()
    ensures var r := Merge(4, x);
            var d := x.ctx.dstarr.value;
            var item := x.ctx.cvsImg.value;
            && r.Next? && r.s.ctx.dstarr.Some?
            && r.s.caches == x.caches[item.id := CacheOf(x.caches, item.id).(drawn := true)]
            && var d' := r.s.ctx.dstarr.value;
            && d'.shape == d.shape && d'.tags == d.tags
            && |d'.layers| == |d.layers| + 1 && d'.layers[..|d.layers|] == d.layers
            && d'.layers[|d.layers|] ==
                 Layer(item.id, MergeAnchor(d.Ht(), d.Wd(), x.ctx.offset.value).x,
                       MergeAnchor(d.Ht(), d.Wd(), x.ctx.offset.value).y, ht, wd, x.ctx.state.order)
  {
  }

  /** Five stages that each hand the state on make a complete run. */
  lemma {:induction false} NormTrace(v: Viewer, w: World, s1: World, s2: World, s3: World, s4: World, s5: World)
    requires Scale(v, 0, w) == Next(s1) && Reorder(1, s1) == Next(s2) && Cuts(v, 2, s2) == Next(s3)
    requires RgbMap(3, s3) == Next(s4) && Merge(4, s4) == Next(s5)
    ensures RunMini(v, NormImage, 0, w) == Trace(Ok(s5), [0, 1, 2, 3, 4])
  {
    var step := (k: nat, x: World) => MiniStep(v, NormImage, k, x);
    var ss := [w, s1, s2, s3, s4, s5];
    forall k | 0 <= k < 5
      ensures step(0 + k, ss[k]) == Next(ss[k + 1])
    {
    }
    RunThrough(step, 5, 0, ss);
    var t := RunMini(v, NormImage, 0, w);
    assert t.ran == [0, 1, 2, 3, 4];
  }

  /** A value-mapped 2-D image with something on screen goes through all
      five stages without raising and is composited exactly once: the
      buffer keeps its shape and bands and gains one layer, for this object,
      of the scaled clip's size, at the rounded anchor, in the pipeline's
      channel order; the image is marked visible and drawn. */
  lemma {:induction false} NormImageComposited(v: Viewer, w: World)
    requires w.ctx.cvsImg.Some? && w.ctx.cvsImg.value.image.Some?
    requires var src := w.ctx.cvsImg.value.image.value;
             && src.data.Is2D() && 'A' !in src.order
             && (!src.isRgb || src.order == w.ctx.state.order)
    requires |w.ctx.state.order| >= 3
    requires w.ctx.dstarr.Some? && w.ctx.dstarr.value.Is3D()
    requires !ScaleClip(v, w.ctx.cvsImg.value, w.ctx.cvsImg.value.image.value.data).Empty()
    ensures var t := RunMini(v, NormImage, 0, w);
            var item := w.ctx.cvsImg.value;
            var c := ScaleClip(v, item, item.image.value.data);
            var d := w.ctx.dstarr.value;
            && t.ran == [0, 1, 2, 3, 4]
            && t.result.Ok? && t.result.value.ctx.dstarr.Some?
            && var w' := t.result.value;
            && var d' := w'.ctx.dstarr.value;
            && d'.shape == d.shape && d'.tags == d.tags
            && |d'.layers| == |d.layers| + 1 && d'.layers[..|d.layers|] == d.layers
            && var layer := d'.layers[|d.layers|];
            && layer.obj == item.id
            && layer.wd == (c.a2 - c.a1 + 1) * v.scaleX * item.scaleX
            && layer.ht == (c.b2 - c.b1 + 1) * v.scaleY * item.scaleY
            && layer.tags == w.ctx.state.order
            && var off := Pt((c.dst.x - v.pan.x - v.dataOff) * v.scaleX, (c.dst.y - v.pan.y - v.dataOff) * v.scaleY);
            && layer.x == MergeAnchor(d.Ht(), d.Wd(), off).x && layer.y == MergeAnchor(d.Ht(), d.Wd(), off).y
            && CacheOf(w'.caches, item.id).visible && CacheOf(w'.caches, item.id).drawn
  {
    var item := w.ctx.cvsImg.value;
    var c := ScaleClip(v, item, item.image.value.data);
    var ht: nat := (c.b2 - c.b1 + 1) * v.scaleY * item.scaleY;
    var wd: nat := (c.a2 - c.a1 + 1) * v.scaleX * item.scaleX;
    var w0 := w.(ctx := w.ctx.(alpha := None));
    ScaleVisible(v, w);
    var s1 := Scale(v, 0, w).s;
    ReorderPlane(w0, s1, ht, wd);
    var s2 := Reorder(1, s1).s;
    CutsPlane(v, w0, s2, ht, wd);
    var s3 := Cuts(v, 2, s2).s;
    RgbMapPlane(w0, s3, ht, wd);
    var s4 := RgbMap(3, s3).s;
    MergeColoured(w0, s4, ht, wd);
    var s5 := Merge(4, s4).s;
    NormTrace(v, w, s1, s2, s3, s4, s5);
  }

  /** Scale on a colour image with something on screen hands on a colour
      cut-out with the image's channels. */
  lemma ScaleVisibleColour(v: Viewer, w: World)
    requires w.ctx.cvsImg.Some? && w.ctx.cvsImg.value.image.Some?
    requires w.ctx.cvsImg.value.image.value.data.Is3D()
    requires !ScaleClip(v, w.ctx.cvsImg.value, w.ctx.cvsImg.value.image.value.data).Empty()
    ensures var item := w.ctx.cvsImg.value;
            var data := item.image.value.data;
            var c := ScaleClip(v, item, data);
            var r := Scale(v, 0, w);
            && r.Next?
            && r.s.caches == w.caches[item.id := CacheOf(w.caches, item.id).(visible := true)]
            && r.s.ctx.cvsImg == w.ctx.cvsImg && r.s.ctx.state == w.ctx.state
            && r.s.ctx.dstarr == w.ctx.dstarr
            && r.s.ctx.offset == Some(Pt((c.dst.x - v.pan.x - v.dataOff) * v.scaleX,
                                         (c.dst.y - v.pan.y - v.dataOff) * v.scaleY))
            && GetData(r.s.ctx, Some(0)).Some?
            && var out := GetData(r.s.ctx, Some(0)).value;
            && out.Is3D() && out.tags == data.tags
            && out.Ht() == (c.b2 - c.b1 + 1) * v.scaleY * item.scaleY
            && out.Wd() == (c.a2 - c.a1 + 1) * v.scaleX * item.scaleX
  {
  }

  /** Reorder then Merge on what Scale handed on for such an image: one new
      layer of the cut-out's size, in the pipeline's order, at the rounded
      anchor of the offset. */
  lemma ReorderThenMerge(x: World)
    requires x.ctx.cvsImg.Some? && x.ctx.cvsImg.value.image.Some?
    requires x.ctx.cvsImg.value.image.value.order == x.ctx.state.order
    requires AlphaLast(x.ctx.state.order)
    requires GetData(x.ctx, Some(0)).Some?
    requires GetData(x.ctx, Some(0)).value.Is3D() && GetData(x.ctx, Some(0)).value.tags == x.ctx.state.order
    requires x.ctx.offset.Some? && x.ctx.dstarr.Some? && x.ctx.dstarr.value.Is3D()
    ensures var a := GetData(x.ctx, Some(0)).value;
            var d := x.ctx.dstarr.value;
            var item := x.ctx.cvsImg.value;
            var pos := MergeAnchor(d.Ht(), d.Wd(), x.ctx.offset.value);
            && Reorder(1, x).Next? && Merge(2, Reorder(1, x).s).Next?
            && var x' := Merge(2, Reorder(1, x).s).s;
            && x'.caches == x.caches[item.id := CacheOf(x.caches, item.id).(drawn := true)]
            && x'.ctx.dstarr.Some?
            && var d' := x'.ctx.dstarr.value;
            && d'.shape == d.shape && d'.tags == d.tags
            && |d'.layers| == |d.layers| + 1 && d'.layers[..|d.layers|] == d.layers
            && d'.layers[|d.layers|] == Layer(item.id, pos.x, pos.y, a.Ht(), a.Wd(), x.ctx.state.order)
  {
    ReorderSplitsAlpha(1, x);
    MergeRestoresAlpha(2, Reorder(1, x).s);
  }

  /** Three stages that each hand the state on make a complete run. */
  lemma {:induction false} PlainTrace(v: Viewer, w: World, s1: World, s2: World, s3: World)
    requires Scale(v, 0, w) == Next(s1) && Reorder(1, s1) == Next(s2) && Merge(2, s2) == Next(s3)
    ensures RunMini(v, PlainImage, 0, w) == Trace(Ok(s3), [0, 1, 2])
  {
    var step := (k: nat, x: World) => MiniStep(v, PlainImage, k, x);
    var ss := [w, s1, s2, s3];
    forall k | 0 <= k < 3
      ensures step(0 + k, ss[k]) == Next(ss[k + 1])
    {
    }
    RunThrough(step, 3, 0, ss);
    var t := RunMini(v, PlainImage, 0, w);
    assert t.ran == [0, 1, 2];
  }

  /** A plain colour image with alpha last, in the pipeline's order and with
      something on screen, goes through Scale, Reorder and Merge without
      raising and is composited exactly once: one new layer, for this
      object, of the scaled clip's size, at the rounded anchor, with its
      alpha back in place so that its channels are the pipeline's order;
      the image is marked visible and drawn. */
  lemma {:induction false} PlainAlphaImageComposited(v: Viewer, w: World)
    requires w.ctx.cvsImg.Some? && w.ctx.cvsImg.value.image.Some?
    requires var src := w.ctx.cvsImg.value.image.value;
             && src.data.Is3D() && src.data.tags == src.order && src.order == w.ctx.state.order
    requires AlphaLast(w.ctx.state.order)
    requires w.ctx.dstarr.Some? && w.ctx.dstarr.value.Is3D()
    requires !ScaleClip(v, w.ctx.cvsImg.value, w.ctx.cvsImg.value.image.value.data).Empty()
    ensures var t := RunMini(v, PlainImage, 0, w);
            && t.ran == [0, 1, 2]
            && t.result.Ok? && t.result.value.ctx.dstarr.Some?
            && var d := w.ctx.dstarr.value;
            && var d2 := t.result.value.ctx.dstarr.value;
            && d2.shape == d.shape && d2.tags == d.tags
            && |d2.layers| == |d.layers| + 1 && d2.layers[..|d.layers|] == d.layers
    ensures var t := RunMini(v, PlainImage, 0, w);
            var item := w.ctx.cvsImg.value;
            var c := ScaleClip(v, item, item.image.value.data);
            var d := w.ctx.dstarr.value;
            var off := Pt((c.dst.x - v.pan.x - v.dataOff) * v.scaleX, (c.dst.y - v.pan.y - v.dataOff) * v.scaleY);
            var layer := t.result.value.ctx.dstarr.value.layers[|d.layers|];
            && layer.obj == item.id && layer.tags == w.ctx.state.order
            && layer.x == MergeAnchor(d.Ht(), d.Wd(), off).x && layer.y == MergeAnchor(d.Ht(), d.Wd(), off).y
            && layer.ht == (c.b2 - c.b1 + 1) * v.scaleY * item.scaleY
            && layer.wd == (c.a2 - c.a1 + 1) * v.scaleX * item.scaleX
    ensures var t := RunMini(v, PlainImage, 0, w);
            var id := w.ctx.cvsImg.value.id;
            CacheOf(t.result.value.caches, id).visible && CacheOf(t.result.value.caches, id).drawn
  {
    ScaleVisibleColour(v, w);
    var s1 := Scale(v, 0, w).s;
    ReorderThenMerge(s1);
    var s2 := Reorder(1, s1).s;
    var s3 := Merge(2, s2).s;
    PlainTrace(v, w, s1, s2, s3);
  }
}

=== FILE: outcomes.dfy ===
/**
 * Failure-compatible wrappers shared by every stage.
 *
 * A stage run either finishes or raises.  The renderer distinguishes its own
 * `StageError` (a contract violation it detected on purpose) from any other
 * exception the Python code would raise on the way (unpacking a missing
 * context entry, indexing past the last band, ...), which is a `Fault` here.
 */
module Outcomes {

  datatype Option<+T> = None | Some(value: T)

  datatype Error =
    | StageError(stage: string, reason: string)
    | Fault(reason: string)

  datatype Result<+T> = Ok(value: T) | Err(error: Error) {

    predicate IsFailure() {
      Err?
    }

    function PropagateFailure<U>(): Result<U>
      requires Err?
    {
      Err(error)
    }

    function Extract(): T
      requires Ok?
    {
      value
    }
  }

  /** The outcome of an operation on a mutable object: when it raises, the
      object keeps whatever the operation had already changed. */
  datatype Attempt<+S> = Done(st: S) | Raised(st: S, error: Error)
}

=== FILE: overlays.dfy ===
/**
 * The Overlays stage: copy the background into a private destination
 * buffer and walk the canvas, running each image's cached mini-pipeline
 * from the stage the invalidation level (`whence`) calls for.
 */
module ImageOverlays {
  import opened Outcomes
  import opened Arrays
  import opened Scene
  import opened Pipeline
  import opened ImageStages

  const OverlaysName: string := "viewer-image-overlays"

  /** Which mini-pipeline stage to restart an image from, or `None` to skip
      the image: everything recomputes at level 0 or below, an image Scale
      last found off screen is skipped, and otherwise a plain image restarts
      after Scale while a value-mapped image restarts at Cuts (level 1),
      RGBMap (level 2) or only Merge (above). */
  function RestartIndex(kind: ImgKind, whence: real, visible: bool): (r: Option<nat>)
    ensures whence <= 0.0 <==> r == Some(0)
    ensures r.None? <==> whence > 0.0 && !visible
    ensures r.Some? ==> r.value < |MiniStages(kind)|
    ensures r.Some? && whence > 0.0 ==>
              match kind
              case PlainImage => MiniStages(kind)[r.value] == ReorderStage
              case NormImage =>
                MiniStages(kind)[r.value] ==
                  (if whence <= 1.0 then CutsStage else if whence <= 2.0 then RgbMapStage else MergeStage)
  {
    if whence <= 0.0 then Some(0)
    else if !visible then None
    else
      match kind
      case PlainImage => Some(1)
      case NormImage => if whence <= 1.0 then Some(2) else if whence <= 2.0 then Some(3) else Some(4)
  }

  /** A higher invalidation level never restarts an image earlier. */
  lemma RestartMonotone(kind: ImgKind, w1: real, w2: real, visible: bool)
    requires w1 <= w2
    requires RestartIndex(kind, w2, visible).Some?
    ensures RestartIndex(kind, w1, visible).Some?
    ensures RestartIndex(kind, w1, visible).value <= RestartIndex(kind, w2, visible).value
  {
  }

  /** The destination buffer `d` is `d0` with possibly more images
      composited onto it: same shape, bands and values, layers extended. */
  predicate DstExtends(d0: Raster, d: Option<Raster>) {
    && d.Some?
    && d.value.shape == d0.shape && d.value.tags == d0.tags
    && d.value.dtype == d0.dtype && d.value.range == d0.range
    && d0.layers <= d.value.layers
  }

  function DstKeeps(d0: Raster): World -> bool {
    (y: World) => DstExtends(d0, y.ctx.dstarr)
  }

  lemma DstExtendsTrans(d0: Raster, d1: Raster, d2: Option<Raster>)
    requires DstExtends(d0, Some(d1)) && DstExtends(d1, d2)
    ensures DstExtends(d0, d2)
  {
  }

  /** No mini-pipeline stage does more to the buffer than composite onto it. */
  lemma MiniStepKeepsDst(v: Viewer, kind: ImgKind, d0: Raster)
    ensures forall k: nat, x: World :: DstKeeps(d0)(x) ==> Keeps(MiniStep(v, kind, k, x), DstKeeps(d0))
  {
    forall k: nat, x: World | DstKeeps(d0)(x)
      ensures Keeps(MiniStep(v, kind, k, x), DstKeeps(d0))
    {
      var stages := MiniStages(kind);
      if k < |stages| {
        match stages[k]
        case ScaleStage =>
        case ReorderStage =>
        case CutsStage =>
        case RgbMapStage =>
        case MergeStage =>
          var r := Merge(k, x);
          if r.Next? && GetData(x.ctx, Prev(k)).Some? {
            var d := x.ctx.dstarr.value;
            var d' := r.s.ctx.dstarr.value;
            assert d'.layers[..|d.layers|] == d.layers;
            assert d0.layers <= d.layers;
            assert d.layers <= d'.layers;
          }
      }
    }
  }

  /** The mini-pipeline an image uses: the cached one, or a new one for its kind. */
  function PipeFor(cache: Cache, item: ImageItem, state: State): (p: MiniPipe)
    ensures cache.pipe.Some? ==> p == cache.pipe.value
    ensures cache.pipe.None? ==> p.kind == item.kind && p.ctx.outs == map[]
  {
    if cache.pipe.Some? then cache.pipe.value else MiniPipe(item.kind, FreshCtx(state, 0.0))
  }

  /** The world an image's mini-pipeline starts from: its pipeline (cached
      or new) stored in the image's cache, with the level, the image, the
      state and the shared buffer set in the pipeline's context. */
  function MiniStart(pipe: MiniPipe, item: ImageItem, whence: real, w: World): (s: World)
    ensures s.ctx == pipe.ctx.(whence := whence, cvsImg := Some(item), state := w.ctx.state, dstarr := w.ctx.dstarr)
    ensures s.caches == w.caches[item.id := CacheOf(w.caches, item.id).(pipe := Some(MiniPipe(pipe.kind, s.ctx)))]
  {
    var pctx := pipe.ctx.(whence := whence, cvsImg := Some(item), state := w.ctx.state, dstarr := w.ctx.dstarr);
    World(pctx, w.caches[item.id := CacheOf(w.caches, item.id).(pipe := Some(pipe.(ctx := pctx)))])
  }

  /** What the overlay pass keeps of a finished mini-pipeline run: the
      buffer goes back to its own context and the image's cache holds the
      pipeline with the context the run left. */
  function Finish(w: World, kind: ImgKind, id: nat, mw: World): (r: World)
    ensures r.ctx == w.ctx.(dstarr := mw.ctx.dstarr)
    ensures r.caches == mw.caches[id := CacheOf(mw.caches, id).(pipe := Some(MiniPipe(kind, mw.ctx)))]
  {
    World(w.ctx.(dstarr := mw.ctx.dstarr), mw.caches[id := CacheOf(mw.caches, id).(pipe := Some(MiniPipe(kind, mw.ctx)))])
  }

  /** `_prepare_image` / `_prepare_norm_image`: hand the image, the level,
      the state and the shared buffer to the image's mini-pipeline and run
      it from the restart stage, unless the image is to be skipped.  A
      cached pipeline too short for the restart stage raises. */
  function PrepareImage(v: Viewer, item: ImageItem, whence: real, w: World): (r: Result<World>)
    ensures r.Ok? ==> r.value.ctx == w.ctx.(dstarr := r.value.ctx.dstarr)
    ensures r.Ok? && w.ctx.dstarr.Some? ==> DstExtends(w.ctx.dstarr.value, r.value.ctx.dstarr)
    ensures var cache := CacheOf(w.caches, item.id);
            var pipe := PipeFor(cache, item, w.ctx.state);
            var start := MiniStart(pipe, item, whence, w);
            var ri := RestartIndex(item.kind, whence, cache.visible);
            && (ri.None? ==> r == Ok(World(w.ctx, start.caches)))
            && (ri.Some? && ri.value >= |MiniStages(pipe.kind)| ==> r.Err?)
            && (ri.Some? && ri.value < |MiniStages(pipe.kind)| ==>
                  var t := RunMini(v, pipe.kind, ri.value, start);
                  && (r.Ok? <==> t.result.Ok?)
                  && (r.Err? ==> r.error == t.result.error)
                  && (r.Ok? ==> r.value == Finish(w, pipe.kind, item.id, t.result.value)))
    ensures r.Ok? ==>
              && item.id in r.value.caches && r.value.caches[item.id].pipe.Some?
              && var prev := CacheOf(w.caches, item.id);
              && r.value.caches[item.id].pipe.value.kind ==
                   (if prev.pipe.Some? then prev.pipe.value.kind else item.kind)
  {
    var cache := CacheOf(w.caches, item.id);
    var pipe := PipeFor(cache, item, w.ctx.state);
    var start := MiniStart(pipe, item, whence, w);
    match RestartIndex(item.kind, whence, cache.visible)
    case None => Ok(World(w.ctx, start.caches))
    case Some(j) =>
      if j >= |MiniStages(pipe.kind)| then Err(Fault("list index out of range"))
      else
        var t := RunMini(v, pipe.kind, j, start);
        if t.result.Err? then Err(t.result.error)
        else
          var out := Finish(w, pipe.kind, item.id, t.result.value);
          if w.ctx.dstarr.Some? then
            var d0 := w.ctx.dstarr.value;
            MiniStepKeepsDst(v, pipe.kind, d0);
            RunPreserves((k: nat, x: World) => MiniStep(v, pipe.kind, k, x),
                         |MiniStages(pipe.kind)|, j, start, DstKeeps(d0));
            Ok(out)
          else Ok(out)
  }

  /** At level 0 a value-mapped 2-D image with something on screen is
      composited onto the shared buffer exactly once, and its cache records
      it as visible and drawn. */
  lemma PrepareNormImageDraws(v: Viewer, item: ImageItem, whence: real, w: World)
    requires whence <= 0.0 && item.kind == NormImage
    requires CacheOf(w.caches, item.id).pipe.None? || CacheOf(w.caches, item.id).pipe.value.kind == NormImage
    requires item.image.Some?
    requires var src := item.image.value;
             && src.data.Is2D() && 'A' !in src.order
             && (!src.isRgb || src.order == w.ctx.state.order)
    requires |w.ctx.state.order| >= 3
    requires w.ctx.dstarr.Some? && w.ctx.dstarr.value.Is3D()
    requires !ScaleClip(v, item, item.image.value.data).Empty()
    ensures var r := PrepareImage(v, item, whence, w);
            var d := w.ctx.dstarr.value;
            && r.Ok? && r.value.ctx.dstarr.Some?
            && var d' := r.value.ctx.dstarr.value;
            && d'.shape == d.shape && d'.tags == d.tags
            && |d'.layers| == |d.layers| + 1 && d'.layers[..|d.layers|] == d.layers
            && d'.layers[|d.layers|].obj == item.id
            && d'.layers[|d.layers|].tags == w.ctx.state.order
            && CacheOf(r.value.caches, item.id).visible && CacheOf(r.value.caches, item.id).drawn
  {
    var cache := CacheOf(w.caches, item.id);
    var pipe := PipeFor(cache, item, w.ctx.state);
    NormImageComposited(v, MiniStart(pipe, item, whence, w));
  }

  /** An image found off screen at level 0 adds nothing to the buffer, and
      at every higher level the pass then skips it without running its
      pipeline. */
  lemma OffScreenThenSkipped(v: Viewer, item: ImageItem, w: World, later: real)
    requires item.image.Some? && item.image.value.data.AtLeast2D()
    requires ScaleClip(v, item, item.image.value.data).Empty()
    requires later > 0.0
    ensures var r := PrepareImage(v, item, 0.0, w);
            && r.Ok? && r.value.ctx == w.ctx
            && !CacheOf(r.value.caches, item.id).visible
            && var r2 := PrepareImage(v, item, later, r.value);
            && r2.Ok? && r2.value.ctx == w.ctx
  {
    var cache := CacheOf(w.caches, item.id);
    var pipe := PipeFor(cache, item, w.ctx.state);
    ImageOffScreen(v, pipe.kind, MiniStart(pipe, item, 0.0, w));
  }

  /** The images among canvas objects in the order the overlay pass meets
      them: depth first, a container's images in the container's place,
      other drawables contributing nothing. */
  function Images(objs: seq<CanvasObj>): seq<ImageItem>
    decreases objs
  {
    if |objs| == 0 then []
    else
      (match objs[0]
       case Picture(item) => [item]
       case Compound(children) => Images(children)
       case Drawing => [])
      + Images(objs[1..])
  }

  /** The images the overlay pass visits on a canvas: none unless it is a
      container. */
  function CanvasImages(canvas: CanvasObj): seq<ImageItem> {
    if canvas.Compound? then Images(canvas.children) else []
  }

  /** Prepare images one after the other, stopping at the first raise. */
  function PrepareAll(v: Viewer, items: seq<ImageItem>, whence: real, w: World): Result<World>
    decreases |items|
  {
    if |items| == 0 then Ok(w)
    else
      var w1 :- PrepareImage(v, items[0], whence, w);
      PrepareAll(v, items[1..], whence, w1)
  }

  /** Preparing a concatenation prepares the first part, then the second. */
  lemma {:induction false} PrepareAllAppend(v: Viewer, a: seq<ImageItem>, b: seq<ImageItem>, whence: real, w: World)
    ensures PrepareAll(v, a + b, whence, w) ==
              match PrepareAll(v, a, whence, w)
              case Err(e) => Err(e)
              case Ok(w1) => PrepareAll(v, b, whence, w1)
    decreases |a|
  {
    if |a| == 0 {
      assert a + b == b;
    } else {
      assert (a + b)[0] == a[0];
      assert (a + b)[1..] == a[1..] + b;
      var r := PrepareImage(v, a[0], whence, w);
      if r.Ok? {
        PrepareAllAppend(v, a[1..], b, whence, r.value);
      }
    }
  }

  /** `_overlay_images`: depth-first over the canvas, images in order,
      recursing into containers, ignoring other drawables. */
  function WalkObjs(v: Viewer, objs: seq<CanvasObj>, whence: real, w: World): (r: Result<World>)
    decreases objs
    ensures r.Ok? ==> r.value.ctx == w.ctx.(dstarr := r.value.ctx.dstarr)
    ensures r.Ok? && w.ctx.dstarr.Some? ==> DstExtends(w.ctx.dstarr.value, r.value.ctx.dstarr)
  {
    if |objs| == 0 then Ok(w)
    else
      var first := objs[0];
      var w1 :- match first
                case Picture(item) => PrepareImage(v, item, whence, w)
                case Compound(children) => WalkObjs(v, children, whence, w)
                case Drawing => Ok(w);
      var r := WalkObjs(v, objs[1..], whence, w1);
      if r.Ok? && w.ctx.dstarr.Some? then
        DstExtendsTrans(w.ctx.dstarr.value, w1.ctx.dstarr.value, r.value.ctx.dstarr);
        r
      else r
  }

  /** The walk prepares exactly the images of the objects, depth first and
      in order, stopping at the first one that raises. */
  lemma {:induction false} WalkObjsPreparesImages(v: Viewer, objs: seq<CanvasObj>, whence: real, w: World)
    ensures WalkObjs(v, objs, whence, w) == PrepareAll(v, Images(objs), whence, w)
    decreases objs
  {
    if |objs| > 0 {
      var rest := objs[1..];
      match objs[0]
      case Picture(item) =>
        assert Images(objs) == [item] + Images(rest);
        PrepareAllAppend(v, [item], Images(rest), whence, w);
        var r := PrepareImage(v, item, whence, w);
        if r.Ok? {
          WalkObjsPreparesImages(v, rest, whence, r.value);
          assert PrepareAll(v, [item], whence, w) == PrepareAll(v, [], whence, r.value);
        }
      case Compound(children) =>
        assert Images(objs) == Images(children) + Images(rest);
        PrepareAllAppend(v, Images(children), Images(rest), whence, w);
        WalkObjsPreparesImages(v, children, whence, w);
        var r := WalkObjs(v, children, whence, w);
        if r.Ok? {
          WalkObjsPreparesImages(v, rest, whence, r.value);
        }
      case Drawing =>
        assert Images(objs) == Images(rest);
        WalkObjsPreparesImages(v, rest, whence, w);
    }
  }

  /** Overlays.run: reuse the previous composite when only overplotting
      (level 3.0 or more) and one exists; otherwise composite every image onto
      a copy of the background. */
  function Overlays(v: Viewer, k: nat, w: World): (r: Result<World>)
    ensures var prior := GetData(w.ctx, Some(k));
            w.ctx.whence >= 3.0 && prior.Some? ==> r == Ok(World(Send(w.ctx, k, prior), w.caches))
    ensures r.Ok? ==> r.value.ctx == Send(w.ctx, k, GetData(r.value.ctx, Some(k))).(dstarr := r.value.ctx.dstarr)
    ensures var prior := GetData(w.ctx, Some(k));
            var bg := GetData(w.ctx, Prev(k));
            r.Ok? && !(w.ctx.whence >= 3.0 && prior.Some?) ==>
              && (bg.Some? ==> bg.value.AtLeast2D())
              && GetData(r.value.ctx, Some(k)) == r.value.ctx.dstarr
              && DstExtends(Copy(bg), r.value.ctx.dstarr)
    ensures var prior := GetData(w.ctx, Some(k));
            var bg := GetData(w.ctx, Prev(k));
            !(w.ctx.whence >= 3.0 && prior.Some?) && bg.Some? && !bg.value.AtLeast2D() ==>
              r == Err(StageError(OverlaysName, "Expecting a 2D or greater array"))
  {
    var whence := w.ctx.whence;
    var prior := GetData(w.ctx, Some(k));
    if whence >= 3.0 && prior.Some? then Ok(World(Send(w.ctx, k, prior), w.caches))
    else
      var bg := GetData(w.ctx, Prev(k));
      var _ :- Verify2D(OverlaysName, bg);
      var dst := Copy(bg);
      var start := World(w.ctx.(dstarr := Some(dst)), w.caches);
      var walked :- match v.canvas
                    case Compound(children) => WalkObjs(v, children, whence, start)
                    case _ => Ok(start);
      Ok(World(Send(walked.ctx, k, walked.ctx.dstarr), walked.caches))
  }

  /** Unless the previous composite is reused, Overlays checks the
      background, prepares every image of the canvas depth first onto a
      copy of it, and publishes the buffer; a raise while preparing an
      image is the stage's raise. */
  lemma OverlaysPreparesImages(v: Viewer, k: nat, w: World)
    ensures var prior := GetData(w.ctx, Some(k));
            var bg := GetData(w.ctx, Prev(k));
            var start := World(w.ctx.(dstarr := Some(Copy(bg))), w.caches);
            var f := PrepareAll(v, CanvasImages(v.canvas), w.ctx.whence, start);
            !(w.ctx.whence >= 3.0 && prior.Some?) && (bg.None? || bg.value.AtLeast2D()) ==>
              Overlays(v, k, w) ==
                (if f.Err? then Err(f.error) else Ok(World(Send(f.value.ctx, k, f.value.ctx.dstarr), f.value.caches)))
  {
    if v.canvas.Compound? {
      var bg := GetData(w.ctx, Prev(k));
      WalkObjsPreparesImages(v, v.canvas.children, w.ctx.whence, World(w.ctx.(dstarr := Some(Copy(bg))), w.caches));
    }
  }

  /** A fractional level between 2 and 3, such as 2.5, is below the reuse
      threshold, so the frame is rebuilt from the background, while every
      visible value-mapped image restarts only at Merge and every visible
      plain image after Scale. */
  lemma FractionalLevelRebuilds(v: Viewer, k: nat, w: World)
    requires 2.0 < w.ctx.whence < 3.0
    requires var bg := GetData(w.ctx, Prev(k)); bg.None? || bg.value.AtLeast2D()
    ensures RestartIndex(NormImage, w.ctx.whence, true) == Some(4)
    ensures RestartIndex(PlainImage, w.ctx.whence, true) == Some(1)
    ensures var start := World(w.ctx.(dstarr := Some(Copy(GetData(w.ctx, Prev(k))))), w.caches);
            var f := PrepareAll(v, CanvasImages(v.canvas), w.ctx.whence, start);
            Overlays(v, k, w) ==
              (if f.Err? then Err(f.error) else Ok(World(Send(f.value.ctx, k, f.value.ctx.dstarr), f.value.caches)))
  {
    OverlaysPreparesImages(v, k, w);
  }
}

=== FILE: pipeline.dfy ===
/**
 * The pipeline engine, as the stages use it: an ordered list of stages
 * sharing one context, run from a given index to the end unless a stage
 * calls `stop()` or raises.
 *
 * A stage is a step function on the pipeline's state: it either hands the
 * state on, hands it on and asks the pipeline to stop, or raises.
 */
module Pipeline {
  import opened Outcomes

  datatype Step<S> = Next(s: S) | Halt(s: S) | Fail(e: Error)

  /** What a run produced and which stage indices ran, in order. */
  datatype Trace<S> = Trace(result: Result<S>, ran: seq<nat>)

  /** `run_from(stages[i])` on a pipeline of `n` stages. */
  function RunFrom<S>(step: (nat, S) -> Step<S>, n: nat, i: nat, s: S): (t: Trace<S>)
    decreases n - i
    ensures |t.ran| <= if i < n then n - i else 0
    ensures forall k :: 0 <= k < |t.ran| ==> t.ran[k] == i + k
    ensures i >= n ==> t == Trace(Ok(s), [])
    ensures i < n ==> |t.ran| >= 1
    ensures t.result.Err? ==> step(i + |t.ran| - 1, StateBefore(step, i, |t.ran| - 1, s)).Fail?
    ensures t.result.Ok? && i < n && |t.ran| < n - i ==>
              step(i + |t.ran| - 1, StateBefore(step, i, |t.ran| - 1, s)).Halt?
  {
    if i >= n then Trace(Ok(s), [])
    else
      match step(i, s)
      case Fail(e) => Trace(Err(e), [i])
      case Halt(s') => Trace(Ok(s'), [i])
      case Next(s') =>
        var t := RunFrom(step, n, i + 1, s');
        Trace(t.result, [i] + t.ran)
  }

  /** A stage that hands the state on makes the run the rest of the run. */
  lemma RunFromNext<S>(step: (nat, S) -> Step<S>, n: nat, i: nat, s: S, s': S)
    requires i < n && step(i, s) == Next(s')
    ensures RunFrom(step, n, i, s) == Trace(RunFrom(step, n, i + 1, s').result, [i] + RunFrom(step, n, i + 1, s').ran)
  {
  }

  /** Stages that all hand the state on run the pipeline to its end. */
  lemma {:induction false} RunThrough<S>(step: (nat, S) -> Step<S>, n: nat, i: nat, ss: seq<S>)
    requires i <= n && |ss| == n - i + 1
    requires forall k :: 0 <= k < n - i ==> step(i + k, ss[k]) == Next(ss[k + 1])
    ensures RunFrom(step, n, i, ss[0]).result == Ok(ss[n - i])
    ensures |RunFrom(step, n, i, ss[0]).ran| == n - i
    decreases n - i
  {
    if i < n {
      assert step(i + 0, ss[0]) == Next(ss[1]);
      var rest := ss[1..];
      forall k | 0 <= k < n - (i + 1)
        ensures step(i + 1 + k, rest[k]) == Next(rest[k + 1])
      {
        assert step(i + (k + 1), ss[k + 1]) == Next(ss[k + 2]);
      }
      RunThrough(step, n, i + 1, rest);
    }
  }

  /** The state the stage `i + m` sees when the `m` stages before it all
      handed the state on (and some dummy once one did not). */
  function StateBefore<S>(step: (nat, S) -> Step<S>, i: nat, m: nat, s: S): S
    decreases m
  {
    if m == 0 then s
    else
      match step(i, s)
      case Next(s') => StateBefore(step, i + 1, m - 1, s')
      case Halt(s') => s'
      case Fail(_) => s
  }

  /** The engine's loop: run stage after stage until the end, a `stop()`,
      or an exception.  It computes what `RunFrom` defines. */
  method RunLoop<S>(step: (nat, S) -> Step<S>, n: nat, i: nat, s: S) returns (r: Result<S>)
    ensures r == RunFrom(step, n, i, s).result
  {
    var k := i;
    var cur := s;
    var stopped := false;
    r := Ok(s);
    while k < n && !stopped
      invariant stopped ==> r == RunFrom(step, n, i, s).result
      invariant !stopped ==> RunFrom(step, n, i, s).result == RunFrom(step, n, k, cur).result
      decreases n - k, if stopped then 0 else 1
    {
      match step(k, cur)
      case Fail(e) =>
        return Err(e);
      case Halt(s') =>
        r := Ok(s');
        stopped := true;
      case Next(s') =>
        cur := s';
        k := k + 1;
    }
    if !stopped {
      r := Ok(cur);
    }
  }

  predicate Keeps<S>(st: Step<S>, P: S -> bool) {
    match st
    case Next(s') => P(s')
    case Halt(s') => P(s')
    case Fail(_) => true
  }

  /** A property every stage preserves holds of a run's result. */
  lemma {:induction false} RunPreserves<S>(step: (nat, S) -> Step<S>, n: nat, i: nat, s: S, P: S -> bool)
    requires P(s)
    requires forall k: nat, x: S :: P(x) ==> Keeps(step(k, x), P)
    ensures RunFrom(step, n, i, s).result.Ok? ==> P(RunFrom(step, n, i, s).result.value)
    decreases n - i
  {
    if i < n {
      assert Keeps(step(i, s), P);
      match step(i, s)
      case Next(s') => RunPreserves(step, n, i + 1, s', P);
      case Halt(_) =>
      case Fail(_) =>
    }
  }
}

=== FILE: renderer.dfy ===
/**
 * The viewer's staged renderer as a whole: the six whole-frame stages run in
 * order over one shared context, each possibly bypassed.
 */
module Renderer {
  import opened Outcomes
  import opened Arrays
  import opened Geometry
  import opened Scene
  import opened Pipeline
  import opened ViewerStages
  import opened ImageOverlays

  datatype TopKind = CreateBgStage | OverlaysStage | IccStage | FlipSwapStage | RotateStage | OutputStage

  /** A stage of the viewer pipeline with its bypass switch.  Overlays never
      consults its switch. */
  datatype TopStage = TopStage(kind: TopKind, bypass: bool)

  /** CreateBg => Overlays => ICCProf => FlipSwap => Rotate => Output, none bypassed. */
  const StandardStages: seq<TopStage> := [
    TopStage(CreateBgStage, false), TopStage(OverlaysStage, false), TopStage(IccStage, false),
    TopStage(FlipSwapStage, false), TopStage(RotateStage, false), TopStage(OutputStage, false)]

  /** A whole-frame stage's outcome as a pipeline step; these stages never stop the pipeline. */
  function Lift(r: Result<Ctx>, caches: map<nat, Cache>): (st: Step<World>)
    ensures r.Ok? <==> st.Next?
    ensures r.Ok? ==> st.s == World(r.value, caches)
    ensures r.Err? ==> st == Fail(r.error)
  {
    match r
    case Ok(c) => Next(World(c, caches))
    case Err(e) => Fail(e)
  }

  /** Stage `k` of `stages` run on the world `w`. */
  function TopStep(v: Viewer, stages: seq<TopStage>, k: nat, w: World): (r: Step<World>)
    ensures !r.Halt?
    ensures r.Next? && k < |stages| && stages[k].kind != OverlaysStage ==> r.s.caches == w.caches
  {
    if k >= |stages| then Fail(Fault("list index out of range"))
    else
      var s := stages[k];
      match s.kind
      case CreateBgStage => Lift(CreateBg(s.bypass, k, w.ctx), w.caches)
      case OverlaysStage =>
        (match Overlays(v, k, w)
         case Ok(w') => Next(w')
         case Err(e) => Fail(e))
      case IccStage => Lift(IccProf(v.icc, s.bypass, k, w.ctx), w.caches)
      case FlipSwapStage => Lift(FlipSwap(v.flips, s.bypass, k, w.ctx), w.caches)
      case RotateStage => Lift(Rotate(v.rotated, v.invertY, s.bypass, k, w.ctx), w.caches)
      case OutputStage => Lift(Output(v.rendererOrder, s.bypass, k, w.ctx), w.caches)
  }

  /** `run_from(stages[i])` on the viewer pipeline: the stages from `i` on
      run in order; only an Overlays stage touches the image caches, so a
      stage list without one leaves them as they were. */
  function Render(v: Viewer, stages: seq<TopStage>, i: nat, w: World): (t: Trace<World>)
    ensures forall j :: 0 <= j < |t.ran| ==> t.ran[j] == i + j
    ensures t.result.Ok? && (forall j :: 0 <= j < |stages| ==> stages[j].kind != OverlaysStage) ==>
              t.result.value.caches == w.caches
  {
    var step := (k: nat, x: World) => TopStep(v, stages, k, x);
    if forall j :: 0 <= j < |stages| ==> stages[j].kind != OverlaysStage then
      var keep := (x: World) => x.caches == w.caches;
      assert forall k: nat, x: World :: keep(x) ==> Keeps(step(k, x), keep);
      RunPreserves(step, |stages|, i, w, keep);
      RunFrom(step, |stages|, i, w)
    else RunFrom(step, |stages|, i, w)
  }

  /** Since no whole-frame stage stops the pipeline, a render that does not
      raise runs every stage from `i` on. */
  lemma RenderRunsToEnd(v: Viewer, stages: seq<TopStage>, i: nat, w: World)
    requires i < |stages|
    ensures var t := Render(v, stages, i, w);
            t.result.Ok? ==> |t.ran| == |stages| - i
  {
  }

  /** What an Overlays pass may have left from an earlier run and reused:
      nothing, or a 3-D frame of the size CreateBg builds for this window. */
  predicate PriorFits(prior: Option<Raster>, st: State) {
    prior.Some? ==>
      && prior.value.Is3D()
      && prior.value.Ht() == CanvasSide(st.winWd, st.winHt)
      && prior.value.Wd() == CanvasSide(st.winWd, st.winHt)
  }

  /** Stage `k` has published a frame of CreateBg's size for this window,
      and the tracked offset is still the canvas centre. */
  predicate Framed(c: Ctx, k: nat, st: State) {
    var side := CanvasSide(st.winWd, st.winHt);
    && c.state == st
    && GetData(c, Some(k)).Some?
    && GetData(c, Some(k)).value.Is3D()
    && GetData(c, Some(k)).value.Ht() == side
    && GetData(c, Some(k)).value.Wd() == side
    && c.orgOff == Some(Pt(side / 2, side / 2))
  }

  lemma CreateBgFrames(ctx: Ctx)
    ensures CreateBg(false, 0, ctx).Ok?
    ensures var c := CreateBg(false, 0, ctx).value;
            && Framed(c, 0, ctx.state)
            && c.whence == ctx.whence && GetData(c, Some(1)) == GetData(ctx, Some(1))
  {
    var st := ctx.state;
    var side := CanvasSide(st.winWd, st.winHt);
    var bg := Filled(side, side, st.order, UInt8);
    assert CreateBg(false, 0, ctx) ==
           Ok(Send(ctx, 0, Some(bg)).(orgDim := Some(Pt(side, side)), orgOff := Some(Pt(side / 2, side / 2))));
  }

  lemma OverlaysFrames(v: Viewer, w: World, st: State)
    requires Framed(w.ctx, 0, st)
    requires w.ctx.whence >= 3.0 ==> PriorFits(GetData(w.ctx, Some(1)), st)
    ensures Overlays(v, 1, w).Ok? ==> Framed(Overlays(v, 1, w).value.ctx, 1, st)
  {
  }

  lemma IccFrames(icc: Icc, c: Ctx, st: State)
    requires Framed(c, 1, st)
    ensures IccProf(icc, false, 2, c).Ok? && Framed(IccProf(icc, false, 2, c).value, 2, st)
  {
  }

  lemma FlipSwapFrames(f: Flips, c: Ctx, st: State)
    requires Framed(c, 2, st)
    ensures FlipSwap(f, false, 3, c).Ok?
    ensures var side := CanvasSide(st.winWd, st.winHt);
            var c' := FlipSwap(f, false, 3, c).value;
            && Framed(c', 3, st)
            && c'.off == Some(FlipSwapOffset(side, side, Pt(side / 2, side / 2), f))
  {
  }

  lemma RotateFrames(rotated: bool, invertY: bool, f: Flips, c: Ctx, st: State)
    requires Framed(c, 3, st)
    requires var side := CanvasSide(st.winWd, st.winHt);
             c.off == Some(FlipSwapOffset(side, side, Pt(side / 2, side / 2), f))
    ensures Rotate(rotated, invertY, false, 4, c).Ok?
    ensures var side := CanvasSide(st.winWd, st.winHt);
            var c' := Rotate(rotated, invertY, false, 4, c).value;
            && Framed(c', 4, st)
            && c'.dst == Some(RotateDst(st.ctr, side, FlipSwapOffset(side, side, Pt(side / 2, side / 2), f)))
  {
  }

  lemma OutputFitsWindow(rendererOrder: string, f: Flips, c: Ctx, st: State)
    requires Framed(c, 4, st)
    requires st.ctr == WindowCentre(st.winWd, st.winHt)
    requires var side := CanvasSide(st.winWd, st.winHt);
             c.dst == Some(RotateDst(st.ctr, side, FlipSwapOffset(side, side, Pt(side / 2, side / 2), f)))
    ensures Output(rendererOrder, false, 5, c).Ok?
    ensures var c' := Output(rendererOrder, false, 5, c).value;
            && GetData(c', Some(5)).Some?
            && var o := GetData(c', Some(5)).value;
            && o.Is3D() && o.tags == rendererOrder
            && o.Ht() == st.winHt && o.Wd() == st.winWd
            && c'.outOrder == Some(rendererOrder)
  {
    WindowInsideCanvas(st.winWd, st.winHt, f);
  }

  /** Stage `k` of the standard pipeline. */
  lemma StandardStep(v: Viewer, k: nat, w: World)
    requires k < 6
    ensures TopStep(v, StandardStages, k, w) ==
              match k
              case 0 => Lift(CreateBg(false, 0, w.ctx), w.caches)
              case 1 => (match Overlays(v, 1, w) case Ok(w') => Next(w') case Err(e) => Fail(e))
              case 2 => Lift(IccProf(v.icc, false, 2, w.ctx), w.caches)
              case 3 => Lift(FlipSwap(v.flips, false, 3, w.ctx), w.caches)
              case 4 => Lift(Rotate(v.rotated, v.invertY, false, 4, w.ctx), w.caches)
              case _ => Lift(Output(v.rendererOrder, false, 5, w.ctx), w.caches)
  {
  }

  /** With the window centre as the anchor point, the standard pipeline
      never rejects its own geometry: only the Overlays pass can raise, and
      a finished render hands the renderer a frame exactly the size of the
      window, in the renderer's channel order, whatever the flips. */
  lemma {:induction false} StandardFrameFitsWindow(v: Viewer, w: World)
    requires w.ctx.state.ctr == WindowCentre(w.ctx.state.winWd, w.ctx.state.winHt)
    requires w.ctx.whence >= 3.0 ==> PriorFits(GetData(w.ctx, Some(1)), w.ctx.state)
    ensures var t := Render(v, StandardStages, 0, w);
            && (t.result.Err? ==> t.ran == [0, 1])
            && (t.result.Ok? ==>
                  && GetData(t.result.value.ctx, Some(5)).Some?
                  && var o := GetData(t.result.value.ctx, Some(5)).value;
                  && o.Is3D() && o.tags == v.rendererOrder
                  && o.Ht() == w.ctx.state.winHt && o.Wd() == w.ctx.state.winWd
                  && t.result.value.ctx.outOrder == Some(v.rendererOrder))
  {
    var step := (k: nat, x: World) => TopStep(v, StandardStages, k, x);
    var st := w.ctx.state;

    CreateBgFrames(w.ctx);
    var w1 := World(CreateBg(false, 0, w.ctx).value, w.caches);
    StandardStep(v, 0, w);
    RunFromNext(step, 6, 0, w, w1);

    OverlaysFrames(v, w1, st);
    var r2 := Overlays(v, 1, w1);
    StandardStep(v, 1, w1);
    if r2.Err? {
      return;
    }
    var w2 := r2.value;
    RunFromNext(step, 6, 1, w1, w2);

    IccFrames(v.icc, w2.ctx, st);
    var w3 := World(IccProf(v.icc, false, 2, w2.ctx).value, w2.caches);
    StandardStep(v, 2, w2);
    RunFromNext(step, 6, 2, w2, w3);

    FlipSwapFrames(v.flips, w3.ctx, st);
    var w4 := World(FlipSwap(v.flips, false, 3, w3.ctx).value, w3.caches);
    StandardStep(v, 3, w3);
    RunFromNext(step, 6, 3, w3, w4);

    RotateFrames(v.rotated, v.invertY, v.flips, w4.ctx, st);
    var w5 := World(Rotate(v.rotated, v.invertY, false, 4, w4.ctx).value, w4.caches);
    StandardStep(v, 4, w4);
    RunFromNext(step, 6, 4, w4, w5);

    OutputFitsWindow(v.rendererOrder, v.flips, w5.ctx, st);
    var w6 := World(Output(v.rendererOrder, false, 5, w5.ctx).value, w5.caches);
    StandardStep(v, 5, w5);
    RunFromNext(step, 6, 5, w5, w6);
    assert RunFrom(step, 6, 6, w6) == Trace(Ok(w6), []);
  }
}

=== FILE: rgbmap_stage.dfy ===
/**
 * The colour-mapping stage of the image-processing pipeline (rgbmap.py):
 * seven parameters, setters that mirror a value into the GUI widgets and
 * the colour mapper when the GUI is up, callbacks that each log one
 * undoable action and re-run the pipeline from this stage, the reset
 * operations, the stage's run, and its dictionary export/import.
 *
 * Percentages (rotation, contrast, brightness) are integer percent: the
 * source stores `val / 100.0` for a widget value `val`.
 */
module RgbmapStage {
  import opened Outcomes
  import opened Arrays
  import Scene
  import ImageStages

  const StageName: string := "rgb-mapper"

  /** The channel order the mapper is asked for. */
  const MapOrder: string := "RGB"

  datatype Field = CalgName | CmapName | ImapName | InvertCmap | RotateCmap | Contrast | Brightness

  const AllFields: seq<Field> := [CalgName, CmapName, ImapName, InvertCmap, RotateCmap, Contrast, Brightness]

  /** The attribute name a field goes by in action dictionaries and exports. */
  function Key(f: Field): string {
    match f
    case CalgName => "calg_name"
    case CmapName => "cmap_name"
    case ImapName => "imap_name"
    case InvertCmap => "invert_cmap"
    case RotateCmap => "rotate_cmap"
    case Contrast => "contrast"
    case Brightness => "brightness"
  }

  lemma KeyInjective(f: Field, g: Field)
    ensures Key(f) == Key(g) <==> f == g
  {
  }

  datatype Value = Name(s: string) | Flag(b: bool) | Percent(pct: int)

  datatype Params = Params(
    calgName: string, cmapName: string, imapName: string,
    invert: bool, rotatePct: int, contrastPct: int, brightnessPct: int)

  /** Linear distribution, gray colour map, ramp intensity map, not
      inverted, not rotated, contrast and brightness at one half. */
  const Defaults: Params := Params("linear", "gray", "ramp", false, 0, 50, 50)

  predicate IsNameField(f: Field) {
    f == CalgName || f == CmapName || f == ImapName
  }

  /** Whether `v` is the kind of value field `f` holds. */
  predicate Fits(f: Field, v: Value) {
    match f
    case CalgName => v.Name?
    case CmapName => v.Name?
    case ImapName => v.Name?
    case InvertCmap => v.Flag?
    case _ => v.Percent?
  }

  function Get(p: Params, f: Field): (v: Value)
    ensures Fits(f, v)
  {
    match f
    case CalgName => Name(p.calgName)
    case CmapName => Name(p.cmapName)
    case ImapName => Name(p.imapName)
    case InvertCmap => Flag(p.invert)
    case RotateCmap => Percent(p.rotatePct)
    case Contrast => Percent(p.contrastPct)
    case Brightness => Percent(p.brightnessPct)
  }

  function Put(p: Params, f: Field, v: Value): (r: Params)
    requires Fits(f, v)
    ensures Get(r, f) == v
    ensures forall g :: g != f ==> Get(r, g) == Get(p, g)
  {
    match f
    case CalgName => p.(calgName := v.s)
    case CmapName => p.(cmapName := v.s)
    case ImapName => p.(imapName := v.s)
    case InvertCmap => p.(invert := v.b)
    case RotateCmap => p.(rotatePct := v.pct)
    case Contrast => p.(contrastPct := v.pct)
    case Brightness => p.(brightnessPct := v.pct)
  }

  /** Parameter sets are determined by their seven fields. */
  lemma ParamsExtensional(p: Params, q: Params)
    requires forall f :: Get(p, f) == Get(q, f)
    ensures p == q
  {
    assert Get(p, CalgName) == Get(q, CalgName);
    assert Get(p, CmapName) == Get(q, CmapName);
    assert Get(p, ImapName) == Get(q, ImapName);
    assert Get(p, InvertCmap) == Get(q, InvertCmap);
    assert Get(p, RotateCmap) == Get(q, RotateCmap);
    assert Get(p, Contrast) == Get(q, Contrast);
    assert Get(p, Brightness) == Get(q, Brightness);
  }

  /** The stage: its bypass switch, whether its GUI is built, the stored
      parameters, what the widgets show, the colour mapper's settings (no
      mapper until the GUI builds one), and the names each selector offers. */
  datatype Stage = Stage(
    bypass: bool, guiUp: bool, p: Params, widgets: Params, mapper: Option<Params>,
    calgNames: seq<string>, cmapNames: seq<string>, imapNames: seq<string>)

  /** A freshly constructed stage. */
  function Init(calgNames: seq<string>, cmapNames: seq<string>, imapNames: seq<string>): (s: Stage)
    ensures s.p == Defaults && !s.bypass && !s.guiUp && s.mapper.None?
    ensures s.calgNames == calgNames && s.cmapNames == cmapNames && s.imapNames == imapNames
  {
    Stage(false, false, Defaults, Defaults, None, calgNames, cmapNames, imapNames)
  }

  /** The list a name field's selector offers. */
  function NamesFor(s: Stage, f: Field): seq<string>
    requires IsNameField(f)
  {
    match f
    case CalgName => s.calgNames
    case CmapName => s.cmapNames
    case _ => s.imapNames
  }

  /** The property setter: store the value; when the GUI is up, look a name
      up in its selector's list (raising when it is missing), show the value
      in the widget, then hand it to the mapper (raising when there is none).
      Whatever was done before a raise stays done. */
  function SetParam(s: Stage, f: Field, v: Value): (r: Attempt<Stage>)
    requires Fits(f, v)
    ensures Get(r.st.p, f) == v
    ensures forall g :: g != f ==> Get(r.st.p, g) == Get(s.p, g)
    ensures r.st == s.(p := r.st.p, widgets := r.st.widgets, mapper := r.st.mapper)
    ensures !s.guiUp ==> r == Done(s.(p := r.st.p))
    ensures r.Done? <==> !s.guiUp || ((!IsNameField(f) || v.s in NamesFor(s, f)) && s.mapper.Some?)
    ensures s.guiUp && r.Done? ==>
              r.st.widgets == Put(s.widgets, f, v) && r.st.mapper == Some(Put(s.mapper.value, f, v))
    ensures r.Raised? && IsNameField(f) && v.s !in NamesFor(s, f) ==>
              r.st.widgets == s.widgets && r.st.mapper == s.mapper
  {
    var s1 := s.(p := Put(s.p, f, v));
    if !s.guiUp then Done(s1)
    else if IsNameField(f) && v.s !in NamesFor(s, f) then
      Raised(s1, Fault("ValueError: " + v.s + " is not in list"))
    else
      var s2 := s1.(widgets := Put(s.widgets, f, v));
      if s.mapper.None? then Raised(s2, Fault("'NoneType' object has no attribute"))
      else Done(s2.(mapper := Some(Put(s.mapper.value, f, v))))
  }

  // ---------------------------------------------------------------------
  // Undoable actions

  /** An action's description: fixed text, and the value it was formatted
      with when the text carries one. */
  datatype Descr = Descr(text: string, arg: Option<Value>)

  /** StageAction(self, old, new, descr) for this stage. */
  datatype StageAction = StageAction(prior: map<Field, Value>, next: map<Field, Value>, descr: Descr)

  /** What the stage asks of its pipeline, in order. */
  datatype Request = PushAction(action: StageAction) | RunFromSelf

  datatype Session = Session(stage: Stage, log: seq<Request>)

  predicate FitsAll(d: map<Field, Value>) {
    forall f :: f in d ==> Fits(f, d[f])
  }

  /** Set every field an action dictionary names to its value there. */
  function ApplyDict(p: Params, d: map<Field, Value>): (r: Params)
    requires FitsAll(d)
    ensures forall f :: Get(r, f) == if f in d then d[f] else Get(p, f)
  {
    var r := Params(
      if CalgName in d then d[CalgName].s else p.calgName,
      if CmapName in d then d[CmapName].s else p.cmapName,
      if ImapName in d then d[ImapName].s else p.imapName,
      if InvertCmap in d then d[InvertCmap].b else p.invert,
      if RotateCmap in d then d[RotateCmap].pct else p.rotatePct,
      if Contrast in d then d[Contrast].pct else p.contrastPct,
      if Brightness in d then d[Brightness].pct else p.brightnessPct);
    assert forall f :: Get(r, f) == if f in d then d[f] else Get(p, f) by {
      forall f ensures Get(r, f) == if f in d then d[f] else Get(p, f) {
        assert f in d ==> Fits(f, d[f]);
      }
    }
    r
  }

  /** Undoing an action puts back what it replaced, and redoing it puts back
      what it set: the action's `old` applied after it is the state before,
      its `next` applied before it is the state after. */
  predicate Undoable(before: Params, a: StageAction, after: Params) {
    && FitsAll(a.prior) && FitsAll(a.next)
    && ApplyDict(after, a.prior) == before
    && ApplyDict(before, a.next) == after
  }

  /** An action whose `prior` records, for the fields it names, their values
      before, and whose `next` records their values after, undoes and
      redoes a change that touched no other field. */
  lemma RecordedChangeUndoable(before: Params, a: StageAction, after: Params)
    requires FitsAll(a.prior) && FitsAll(a.next)
    requires a.prior.Keys == a.next.Keys
    requires forall f :: f in a.prior ==> a.prior[f] == Get(before, f) && a.next[f] == Get(after, f)
    requires forall f :: f !in a.prior ==> Get(before, f) == Get(after, f)
    ensures Undoable(before, a, after)
  {
    var u := ApplyDict(after, a.prior);
    forall f
      ensures Get(u, f) == Get(before, f)
    {
      if f in a.prior {
        assert Get(u, f) == a.prior[f];
      }
    }
    ParamsExtensional(u, before);
    var n := ApplyDict(before, a.next);
    forall f
      ensures Get(n, f) == Get(after, f)
    {
      if f in a.next {
        assert Get(n, f) == a.next[f];
      }
    }
    ParamsExtensional(n, after);
  }

  /** The common shape of the single-parameter callbacks: remember the
      stored value, set the new one, log one action from the remembered
      value to the value now stored, and re-run the pipeline from here. */
  function ParamCb(s: Session, f: Field, v: Value, descr: Descr): (r: Attempt<Session>)
    requires Fits(f, v)
    ensures Get(r.st.stage.p, f) == v
    ensures forall g :: g != f ==> Get(r.st.stage.p, g) == Get(s.stage.p, g)
    ensures r.Done? <==> SetParam(s.stage, f, v).Done?
    ensures r.Raised? ==> r.st.log == s.log
    ensures r.Done? ==>
              && |r.st.log| == |s.log| + 2 && r.st.log[..|s.log|] == s.log
              && r.st.log[|s.log| + 1] == RunFromSelf
              && r.st.log[|s.log|] == PushAction(StageAction(map[f := Get(s.stage.p, f)], map[f := v], descr))
  {
    var prior := Get(s.stage.p, f);
    match SetParam(s.stage, f, v)
    case Raised(st, e) => Raised(Session(st, s.log), e)
    case Done(st) =>
      var a := StageAction(map[f := prior], map[f := Get(st.p, f)], descr);
      Done(Session(st, s.log + [PushAction(a), RunFromSelf]))
  }

  /** Every single-parameter callback logs an action that undoes and redoes it. */
  lemma ParamCbUndoable(s: Session, f: Field, v: Value, descr: Descr)
    requires Fits(f, v)
    ensures Undoable(s.stage.p, StageAction(map[f := Get(s.stage.p, f)], map[f := v], descr),
                     ParamCb(s, f, v, descr).st.stage.p)
  {
    RecordedChangeUndoable(s.stage.p, StageAction(map[f := Get(s.stage.p, f)], map[f := v], descr),
                           ParamCb(s, f, v, descr).st.stage.p);
  }

  /** Python list indexing, negative indices counting from the end. */
  function PyIndex<T>(xs: seq<T>, i: int): (r: Option<T>)
    ensures r.Some? <==> -|xs| <= i < |xs|
    ensures 0 <= i < |xs| ==> r == Some(xs[i])
    ensures -|xs| <= i < 0 ==> r == Some(xs[|xs| + i])
  {
    if 0 <= i < |xs| then Some(xs[i])
    else if -|xs| <= i < 0 then Some(xs[|xs| + i])
    else None
  }

  /** Select a name by its index in `names` and set it; an index out of
      range raises before anything changes. */
  function SelectCb(s: Session, f: Field, names: seq<string>, index: int, descr: Descr): (r: Attempt<Session>)
    requires IsNameField(f)
    ensures PyIndex(names, index).None? ==> r.Raised? && r.st == s
    ensures PyIndex(names, index).Some? ==> r == ParamCb(s, f, Name(PyIndex(names, index).value), descr)
  {
    match PyIndex(names, index)
    case None => Raised(s, Fault("IndexError: list index out of range"))
    case Some(name) => ParamCb(s, f, Name(name), descr)
  }

  /** set_cmap_cb picks from the colour-map registry as it is now, which may
      list more maps than the stage's own list taken at construction. */
  function SetCmapCb(s: Session, registry: seq<string>, index: int): (r: Attempt<Session>)
    ensures PyIndex(registry, index).None? ==> r.Raised? && r.st == s
    ensures r.Done? ==> r.st.stage.p == s.stage.p.(cmapName := PyIndex(registry, index).value)
  {
    SelectCb(s, CmapName, registry, index, Descr("rgbmap / change cmap", None))
  }

  function SetImapCb(s: Session, registry: seq<string>, index: int): (r: Attempt<Session>)
    ensures PyIndex(registry, index).None? ==> r.Raised? && r.st == s
    ensures r.Done? ==> r.st.stage.p == s.stage.p.(imapName := PyIndex(registry, index).value)
  {
    SelectCb(s, ImapName, registry, index, Descr("rgbmap / change imap", None))
  }

  /** set_calg_cb picks from the stage's own list. */
  function SetCalgCb(s: Session, index: int): (r: Attempt<Session>)
    ensures PyIndex(s.stage.calgNames, index).None? ==> r.Raised? && r.st == s
    ensures r.Done? ==> r.st.stage.p == s.stage.p.(calgName := PyIndex(s.stage.calgNames, index).value)
  {
    SelectCb(s, CalgName, s.stage.calgNames, index, Descr("rgbmap / change calg", None))
  }

  function RotateCmapCb(s: Session, pct: int): (r: Attempt<Session>)
    ensures r.st.stage.p == s.stage.p.(rotatePct := pct)
  {
    ParamCb(s, RotateCmap, Percent(pct), Descr("rgbmap / rotate cmap: ", Some(Percent(pct))))
  }

  function InvertCmapCb(s: Session, tf: bool): (r: Attempt<Session>)
    ensures r.st.stage.p == s.stage.p.(invert := tf)
  {
    ParamCb(s, InvertCmap, Flag(tf), Descr("rgbmap / invert cmap ", Some(Flag(tf))))
  }

  function ContrastSetCb(s: Session, pct: int): (r: Attempt<Session>)
    ensures r.st.stage.p == s.stage.p.(contrastPct := pct)
  {
    ParamCb(s, Contrast, Percent(pct), Descr("rgbmap / contrast: ", Some(Percent(pct))))
  }

  function BrightnessSetCb(s: Session, pct: int): (r: Attempt<Session>)
    ensures r.st.stage.p == s.stage.p.(brightnessPct := pct)
  {
    ParamCb(s, Brightness, Percent(pct), Descr("rgbmap / brightness: ", Some(Percent(pct))))
  }

  /** The restore buttons put a parameter back to its initial value and are
      undoable like any other change. */
  function UnrotateCmapCb(s: Session): (r: Attempt<Session>)
    ensures r.st.stage.p.rotatePct == Defaults.rotatePct
    ensures r.st.stage.p == s.stage.p.(rotatePct := r.st.stage.p.rotatePct)
    ensures r.Done? ==> |r.st.log| > |s.log| && r.st.log[|s.log|].PushAction? &&
                        r.st.log[|s.log|].action.prior == map[RotateCmap := Percent(s.stage.p.rotatePct)]
  {
    RotateCmapCb(s, 0)
  }

  function RestoreContrastCb(s: Session): (r: Attempt<Session>)
    ensures r.st.stage.p.contrastPct == Defaults.contrastPct
    ensures r.st.stage.p == s.stage.p.(contrastPct := r.st.stage.p.contrastPct)
    ensures r.Done? ==> |r.st.log| > |s.log| && r.st.log[|s.log|].PushAction? &&
                        r.st.log[|s.log|].action.prior == map[Contrast := Percent(s.stage.p.contrastPct)]
  {
    ContrastSetCb(s, 50)
  }

  function RestoreBrightnessCb(s: Session): (r: Attempt<Session>)
    ensures r.st.stage.p.brightnessPct == Defaults.brightnessPct
    ensures r.st.stage.p == s.stage.p.(brightnessPct := r.st.stage.p.brightnessPct)
    ensures r.Done? ==> |r.st.log| > |s.log| && r.st.log[|s.log|].PushAction? &&
                        r.st.log[|s.log|].action.prior == map[Brightness := Percent(s.stage.p.brightnessPct)]
  {
    BrightnessSetCb(s, 50)
  }

  /** set_default_cmaps: log the change to the default colour and intensity
      maps first, then set both, then re-run.  A setter that raises leaves
      the action logged. */
  function SetDefaultCmaps(s: Session): (r: Attempt<Session>)
    ensures |r.st.log| >= |s.log| + 1 && r.st.log[..|s.log|] == s.log
    ensures r.st.log[|s.log|] == PushAction(StageAction(
              map[CmapName := Name(s.stage.p.cmapName), ImapName := Name(s.stage.p.imapName)],
              map[CmapName := Name(Defaults.cmapName), ImapName := Name(Defaults.imapName)],
              Descr("rgbmap / change cmap,imap", None)))
    ensures r.Done? ==>
              && r.st.log == s.log + [r.st.log[|s.log|], RunFromSelf]
              && r.st.stage.p == s.stage.p.(cmapName := Defaults.cmapName, imapName := Defaults.imapName)
    ensures !s.stage.guiUp ==> r.Done?
  {
    var p := s.stage.p;
    var a := StageAction(map[CmapName := Name(p.cmapName), ImapName := Name(p.imapName)],
                         map[CmapName := Name("gray"), ImapName := Name("ramp")],
                         Descr("rgbmap / change cmap,imap", None));
    var log := s.log + [PushAction(a)];
    match SetParam(s.stage, CmapName, Name("gray"))
    case Raised(st, e) => Raised(Session(st, log), e)
    case Done(st1) =>
      match SetParam(st1, ImapName, Name("ramp"))
      case Raised(st, e) => Raised(Session(st, log), e)
      case Done(st2) => Done(Session(st2, log + [RunFromSelf]))
  }

  /** set_default_distmaps: the same for the colour distribution. */
  function SetDefaultDistmaps(s: Session): (r: Attempt<Session>)
    ensures |r.st.log| >= |s.log| + 1 && r.st.log[..|s.log|] == s.log
    ensures r.st.log[|s.log|] == PushAction(StageAction(
              map[CalgName := Name(s.stage.p.calgName)], map[CalgName := Name(Defaults.calgName)],
              Descr("rgbmap / change calg", None)))
    ensures r.st.stage.p == s.stage.p.(calgName := Defaults.calgName)
    ensures r.Done? ==> r.st.log == s.log + [r.st.log[|s.log|], RunFromSelf]
    ensures !s.stage.guiUp ==> r.Done?
  {
    var a := StageAction(map[CalgName := Name(s.stage.p.calgName)], map[CalgName := Name("linear")],
                         Descr("rgbmap / change calg", None));
    var log := s.log + [PushAction(a)];
    match SetParam(s.stage, CalgName, Name("linear"))
    case Raised(st, e) => Raised(Session(st, log), e)
    case Done(st) => Done(Session(st, log + [RunFromSelf]))
  }

  /** The resets log an action that undoes and redoes them. */
  lemma SetDefaultCmapsUndoable(s: Session)
    requires SetDefaultCmaps(s).Done?
    ensures var r := SetDefaultCmaps(s).st;
            Undoable(s.stage.p, r.log[|s.log|].action, r.stage.p)
  {
    var r := SetDefaultCmaps(s).st;
    var p0 := s.stage.p;
    var p1 := r.stage.p;
    assert p1 == p0.(cmapName := Defaults.cmapName, imapName := Defaults.imapName);
    var a := r.log[|s.log|].action;
    assert forall f :: f !in a.prior ==> f != CmapName && f != ImapName;
    RecordedChangeUndoable(p0, a, p1);
  }

  lemma SetDefaultDistmapsUndoable(s: Session)
    requires SetDefaultDistmaps(s).Done?
    ensures var r := SetDefaultDistmaps(s).st;
            Undoable(s.stage.p, r.log[|s.log|].action, r.stage.p)
  {
    var r := SetDefaultDistmaps(s).st;
    var a := r.log[|s.log|].action;
    RecordedChangeUndoable(s.stage.p, a, r.stage.p);
  }

  /** Applying every reset and restore to any parameter set that succeeds
      gives back the initial parameters, except the inversion flag, which
      has no reset of its own. */
  lemma ResetsRestoreDefaults(s: Session)
    requires SetDefaultCmaps(s).Done?
    requires SetDefaultDistmaps(SetDefaultCmaps(s).st).Done?
    ensures var s1 := SetDefaultDistmaps(SetDefaultCmaps(s).st).st;
            var s2 := RestoreBrightnessCb(RestoreContrastCb(UnrotateCmapCb(s1).st).st).st;
            s2.stage.p == Defaults.(invert := s.stage.p.invert)
  {
  }

  // ---------------------------------------------------------------------
  // Running the stage

  /** What the stage publishes for its input `data`: the input itself when
      bypassed or when there is nothing, otherwise the colour-mapped image
      (one band per channel of "RGB", bytes) the mapper produces. */
  function Run(s: Stage, data: Option<Raster>): (r: Result<Option<Raster>>)
    ensures Verify2D(StageName, data).Err? ==> r == Err(StageError(StageName, "Expecting a 2D or greater array"))
    ensures r.Ok? <==> Verify2D(StageName, data).Ok? && (s.bypass || data.None? || s.mapper.Some?)
    ensures r.Ok? && (s.bypass || data.None?) ==> r.value == data
    ensures r.Ok? && !s.bypass && data.Some? ==>
              && data.value.AtLeast2D()
              && r.value.Some?
              && var o := r.value.value;
              && o.Is3D() && o.Ht() == data.value.Ht() && o.Wd() == data.value.Wd()
              && o.tags == MapOrder && o.dtype == UInt8
  {
    var _ :- Verify2D(StageName, data);
    if s.bypass || data.None? then Ok(data)
    else if s.mapper.None? then Err(Fault("'NoneType' object has no attribute 'get_rgb_array'"))
    else
      var a := data.value;
      Ok(Some(Filled(a.Ht(), a.Wd(), MapOrder, UInt8)))
  }

  /** The re-run a successful callback asks for raises exactly when the run
      before it did, and publishes an array of the same shape, bands and
      dtype: a parameter change only changes the colours, which are not
      modelled. */
  lemma RerunAfterCallback(s: Session, f: Field, v: Value, descr: Descr, data: Option<Raster>)
    requires Fits(f, v)
    requires ParamCb(s, f, v, descr).Done?
    ensures var before := Run(s.stage, data);
            var after := Run(ParamCb(s, f, v, descr).st.stage, data);
            && (after.Ok? <==> before.Ok?)
            && (after.Ok? ==> after.value.Some? == before.value.Some?)
            && (after.Ok? && after.value.Some? ==>
                  after.value.value.shape == before.value.value.shape
                  && after.value.value.tags == before.value.value.tags
                  && after.value.value.dtype == before.value.value.dtype)
  {
    var r := SetParam(s.stage, f, v);
    assert r.Done?;
    assert r.st.bypass == s.stage.bypass;
    assert r.st.mapper.Some? <==> s.stage.mapper.Some?;
  }

  /** This stage and the overlay pass's own RGBMap stage both hand the data
      to a colour mapper's `get_rgb_array`, this one with order "RGB": for
      the same 2-D data and a pipeline whose order is "RGB", both publish
      arrays of the same shape, bands and dtype. */
  lemma RunAgreesWithOverlayRgbMap(s: Stage, k: nat, w: Scene.World)
    requires !s.bypass && s.mapper.Some?
    requires w.ctx.cvsImg.Some? && w.ctx.state.order == MapOrder
    requires Scene.GetData(w.ctx, Scene.Prev(k)).Some? && Scene.GetData(w.ctx, Scene.Prev(k)).value.AtLeast2D()
    ensures var data := Scene.GetData(w.ctx, Scene.Prev(k));
            var r := ImageStages.RgbMap(k, w);
            && Run(s, data).Ok? && Run(s, data).value.Some?
            && r.Next? && Scene.GetData(r.s.ctx, Some(k)).Some?
            && var mine := Run(s, data).value.value;
            && var theirs := Scene.GetData(r.s.ctx, Some(k)).value;
            && mine.shape == theirs.shape && mine.tags == theirs.tags && mine.dtype == theirs.dtype
  {
  }

  // ---------------------------------------------------------------------
  // Export and import

  /** The stage's own part of its export: the three map names. */
  function GetState(s: Stage): (d: map<string, Value>)
    ensures d.Keys == {Key(CalgName), Key(CmapName), Key(ImapName)}
    ensures forall f :: IsNameField(f) ==> d[Key(f)] == Get(s.p, f)
  {
    map[Key(CalgName) := Name(s.p.calgName), Key(CmapName) := Name(s.p.cmapName), Key(ImapName) := Name(s.p.imapName)]
  }

  /** The base stage's export `base` updated with the three names. */
  function ExportAsDict(s: Stage, base: map<string, Value>): (d: map<string, Value>)
    ensures d.Keys == base.Keys + GetState(s).Keys
    ensures forall f :: IsNameField(f) ==> d[Key(f)] == Get(s.p, f)
    ensures forall key :: key in base && key !in GetState(s) ==> d[key] == base[key]
  {
    base + GetState(s)
  }

  /** Set one name field from the dictionary entry under its key. */
  function ImportField(s: Stage, d: map<string, Value>, f: Field): (r: Attempt<Stage>)
    requires IsNameField(f)
    ensures Key(f) !in d ==> r == Raised(s, Fault("KeyError: " + Key(f)))
    ensures Key(f) in d && d[Key(f)].Name? ==> r == SetParam(s, f, d[Key(f)])
  {
    if Key(f) !in d then Raised(s, Fault("KeyError: " + Key(f)))
    else if !d[Key(f)].Name? then Raised(s, Fault("unsupported value for " + Key(f)))
    else SetParam(s, f, d[Key(f)])
  }

  /** import_from_dict: set the colour distribution, colour map and
      intensity map names, in that order, through their setters. */
  function ImportFromDict(s: Stage, d: map<string, Value>): (r: Attempt<Stage>)
    ensures r.st.bypass == s.bypass && r.st.guiUp == s.guiUp
    ensures r.st.p.invert == s.p.invert && r.st.p.rotatePct == s.p.rotatePct
    ensures r.st.p.contrastPct == s.p.contrastPct && r.st.p.brightnessPct == s.p.brightnessPct
    ensures Key(CalgName) !in d ==> r.Raised? && r.st == s
  {
    var s1 :- ImportStep(ImportField(s, d, CalgName));
    var s2 :- ImportStep(ImportField(s1, d, CmapName));
    ImportField(s2, d, ImapName)
  }

  /** Thread an attempt through `:-`: carry on with the stage when it
      finished, stop with the partly changed stage when it raised. */
  function ImportStep(a: Attempt<Stage>): (r: Chain)
    ensures a.Done? ==> r == Go(a.st)
    ensures a.Raised? ==> r == Stop(a)
  {
    match a
    case Done(st) => Go(st)
    case Raised(_, _) => Stop(a)
  }

  datatype Chain = Go(st: Stage) | Stop(att: Attempt<Stage>) {
    predicate IsFailure() { Stop? }
    function PropagateFailure(): Attempt<Stage>
      requires Stop?
    {
      att
    }
    function Extract(): Stage
      requires Go?
    {
      st
    }
  }

  /** Importing what a stage exported restores its three map names on a
      stage without a GUI, and leaves its other parameters alone. */
  lemma ExportImportRoundTrip(src: Stage, dst: Stage, base: map<string, Value>)
    requires !dst.guiUp
    ensures var r := ImportFromDict(dst, ExportAsDict(src, base));
            && r.Done?
            && r.st.p == dst.p.(calgName := src.p.calgName, cmapName := src.p.cmapName, imapName := src.p.imapName)
  {
    var d := ExportAsDict(src, base);
    assert d[Key(CalgName)] == Name(src.p.calgName);
    assert d[Key(CmapName)] == Name(src.p.cmapName);
    assert d[Key(ImapName)] == Name(src.p.imapName);
  }

  /** With the GUI up, the import goes through exactly when every name is
      offered by its selector and a mapper exists. */
  lemma ExportImportWithGui(src: Stage, dst: Stage, base: map<string, Value>)
    requires dst.guiUp
    ensures var r := ImportFromDict(dst, ExportAsDict(src, base));
            r.Done? <==>
              src.p.calgName in dst.calgNames && src.p.cmapName in dst.cmapNames &&
              src.p.imapName in dst.imapNames && dst.mapper.Some?
    ensures var r := ImportFromDict(dst, ExportAsDict(src, base));
            r.Done? ==> r.st.p == dst.p.(calgName := src.p.calgName, cmapName := src.p.cmapName, imapName := src.p.imapName)
                        && r.st.mapper.value.calgName == src.p.calgName
  {
    var d := ExportAsDict(src, base);
    assert d[Key(CalgName)] == Name(src.p.calgName);
    assert d[Key(CmapName)] == Name(src.p.cmapName);
    assert d[Key(ImapName)] == Name(src.p.imapName);
  }
}

=== FILE: scene.dfy ===
/**
 * What the render stages read and write: the viewer's settings, the canvas
 * objects, the pipeline context shared by the stages of one pipeline, and
 * the per-object cache that holds each image's mini-pipeline.
 */
module Scene {
  import opened Outcomes
  import opened Arrays
  import opened Geometry

  /** The renderer's per-run state: window size, the pipeline's channel
      order and the window centre. */
  datatype State = State(winWd: nat, winHt: nat, order: string, ctr: Pt)

  /** Cut levels (loval, hival). */
  datatype Levels = Levels(lo: int, hi: int)

  /** The colour-management settings: whether the library is available,
      the working profile and the configured output profile. */
  datatype Icc = Icc(haveCms: bool, working: Option<string>, output: Option<string>)

  /** The viewer as the stages see it.  Fractional scales and pans are
      integers here; `rotated` says the rotation is not close to zero. */
  datatype Viewer = Viewer(
    flips: Flips,
    rotated: bool,
    invertY: bool,
    rendererOrder: string,
    icc: Icc,
    canvas: CanvasObj,
    drawLo: Pt,
    drawHi: Pt,
    scaleX: nat,
    scaleY: nat,
    pan: Pt,
    dataOff: int,
    interpMethods: set<string>,
    interpSetting: Option<string>,
    hashSize: nat,
    autocuts: nat,
    cuts: Levels)

  datatype ImgKind = PlainImage | NormImage

  /** The data of an image object, with its channel order and whether it is
      an RGB image (only those get their channels reordered). */
  datatype Source = Source(data: Raster, order: string, isRgb: bool)

  /** An image on the canvas.  A plain image is drawn as is, a value-mapped
      (Norm) image goes through cut levels and a colour map first.  The
      optional fields override the viewer's settings when present. */
  datatype ImageItem = ImageItem(
    id: nat,
    kind: ImgKind,
    image: Option<Source>,
    pos: Pt,
    scaleX: nat,
    scaleY: nat,
    interp: Option<string>,
    flipY: bool,
    hashSize: Option<nat>,
    autocuts: Option<nat>,
    cuts: Option<Levels>)

  /** A canvas object: a container of objects, an image, or any other
      drawable (which the overlay pass ignores). */
  datatype CanvasObj = Compound(children: seq<CanvasObj>) | Picture(item: ImageItem) | Drawing

  /** The context dictionary of one pipeline.  `outs` holds each stage's
      published output by stage index; a missing entry reads as `None`. */
  datatype Ctx = Ctx(
    state: State,
    whence: real,
    outs: map<nat, Option<Raster>>,
    orgDim: Option<Pt>,
    orgOff: Option<Pt>,
    off: Option<Pt>,
    dst: Option<Pt>,
    outOrder: Option<string>,
    iccProfile: Option<string>,
    dstarr: Option<Raster>,
    cvsImg: Option<ImageItem>,
    offset: Option<Pt>,
    alpha: Option<Raster>)

  /** A context holding only the per-run state. */
  function FreshCtx(state: State, whence: real): Ctx {
    Ctx(state, whence, map[], None, None, None, None, None, None, None, None, None, None)
  }

  /** `get_data(prev_stage)`: what the given stage last published. */
  function GetData(ctx: Ctx, stage: Option<nat>): Option<Raster> {
    if stage.Some? && stage.value in ctx.outs then ctx.outs[stage.value] else None
  }

  /** `send(res_np=...)` by stage `k`. */
  function Send(ctx: Ctx, k: nat, data: Option<Raster>): (r: Ctx)
    ensures GetData(r, Some(k)) == data
    ensures forall j :: j != k ==> GetData(r, Some(j)) == GetData(ctx, Some(j))
  {
    ctx.(outs := ctx.outs[k := data])
  }

  /** The stage before stage `k`, as `run_from` hands it over. */
  function Prev(k: nat): Option<nat> {
    if k == 0 then None else Some(k - 1)
  }

  /** An image's mini-pipeline: which stage list it was built with, and
      its own context, which survives between renders. */
  datatype MiniPipe = MiniPipe(kind: ImgKind, ctx: Ctx)

  /** The per-object cache: the mini-pipeline once built, whether Scale
      last found the image on screen, and whether Merge has drawn it. */
  datatype Cache = Cache(pipe: Option<MiniPipe>, visible: bool, drawn: bool)

  /** A cache as an object gets it the first time: no pipeline, visible,
      not drawn.  The object's cache constructor is not part of this model. */
  const NewCache: Cache := Cache(None, true, false)

  function CacheOf(caches: map<nat, Cache>, id: nat): Cache {
    if id in caches then caches[id] else NewCache
  }

  /** The state a stage works on: its pipeline's context and the caches of
      the canvas objects. */
  datatype World = World(ctx: Ctx, caches: map<nat, Cache>)
}

=== FILE: viewer_stages.dfy ===
/**
 * The whole-frame stages of the viewer pipeline (render.py):
 *
 *   CreateBg => Overlays => ICCProf => FlipSwap => Rotate => Output
 *
 * Overlays lives in its own module.  Each stage reads the previous stage's
 * published array, checks it, publishes its own result under its index and
 * records the geometry later stages need in the context.
 */
module ViewerStages {
  import opened Outcomes
  import opened Arrays
  import opened Geometry
  import opened Scene

  const CreateBgName: string := "viewer-createbg"
  const IccName: string := "viewer-icc-profiler"
  const FlipSwapName: string := "viewer-flipswap"
  const RotateName: string := "viewer-rotate"
  const OutputName: string := "viewer-output"

  /** Allocate the background: a square canvas of the window diagonal plus
      slop, in the pipeline's channel order.  Only valid as the first stage. */
  function CreateBg(bypass: bool, k: nat, ctx: Ctx): (r: Result<Ctx>)
    ensures r.Err? <==> k > 0
    ensures k > 0 ==> r.error == StageError(CreateBgName, "in wrong location")
    ensures r.Ok? && bypass ==> r.value == Send(ctx, k, None)
    ensures r.Ok? && !bypass ==>
              var st := ctx.state;
              var w := r.value;
              && GetData(w, Some(k)).Some?
              && var bg := GetData(w, Some(k)).value;
              && bg.Is3D() && bg.WellTagged() && bg.tags == st.order && bg.layers == []
              && bg.Ht() == bg.Wd()
              && bg.Wd() >= st.winWd + Slop && bg.Wd() >= st.winHt + Slop
              && (bg.Wd() - Slop) * (bg.Wd() - Slop) <= st.winWd * st.winWd + st.winHt * st.winHt
              && st.winWd * st.winWd + st.winHt * st.winHt < (bg.Wd() - Slop + 1) * (bg.Wd() - Slop + 1)
              && w.orgDim == Some(Pt(bg.Wd(), bg.Ht()))
              && w.orgOff == Some(Pt(bg.Wd() / 2, bg.Ht() / 2))
              && w == Send(ctx, k, Some(bg)).(orgDim := w.orgDim, orgOff := w.orgOff)
  {
    if k > 0 then Err(StageError(CreateBgName, "in wrong location"))
    else if bypass then Ok(Send(ctx, k, None))
    else
      var st := ctx.state;
      var side := CanvasSide(st.winWd, st.winHt);
      var bg := Filled(side, side, st.order, UInt8);
      Ok(Send(ctx, k, Some(bg)).(orgDim := Some(Pt(side, side)), orgOff := Some(Pt(side / 2, side / 2))))
  }

  /** Convert colours from the working profile to the output profile.  The
      pixel values are abstracted, so a conversion and the pass-through
      after a failed conversion publish the same array; what differs is the
      profile recorded in the context. */
  function IccProf(icc: Icc, bypass: bool, k: nat, ctx: Ctx): (r: Result<Ctx>)
    ensures r.Ok? <==> Verify2D(IccName, GetData(ctx, Prev(k))).Ok?
    ensures r.Ok? ==> GetData(r.value, Some(k)) == GetData(ctx, Prev(k))
    ensures r.Ok? && (bypass || !icc.haveCms || icc.working.None? || icc.output.None?) ==>
              r.value.iccProfile == icc.working
    ensures r.Ok? && !(bypass || !icc.haveCms || icc.working.None? || icc.output.None?) ==>
              r.value.iccProfile == icc.output
    ensures r.Ok? ==> r.value == Send(ctx, k, GetData(ctx, Prev(k))).(iccProfile := r.value.iccProfile)
  {
    var data := GetData(ctx, Prev(k));
    var _ :- Verify2D(IccName, data);
    if bypass || !icc.haveCms || icc.working.None? || icc.output.None? then
      Ok(Send(ctx, k, data).(iccProfile := icc.working))
    else
      Ok(Send(ctx, k, data).(iccProfile := icc.output))
  }

  /** Exchange the first two dimensions (trcalc.transform with swap_xy). */
  function SwapAxes(a: Raster): (r: Raster)
    requires a.AtLeast2D()
    ensures r.AtLeast2D() && r.Ht() == a.Wd() && r.Wd() == a.Ht()
  {
    Resized(a, a.Wd(), a.Ht())
  }

  /** Flip and swap the frame's axes and move the tracked offset along. */
  function FlipSwap(f: Flips, bypass: bool, k: nat, ctx: Ctx): (r: Result<Ctx>)
    ensures var data := GetData(ctx, Prev(k));
            r.Ok? <==> Verify2D(FlipSwapName, data).Ok? && ctx.orgOff.Some? && (bypass || data.Some?)
    ensures r.Ok? ==> r.value.off.Some?
    ensures r.Ok? && (bypass || f.Identity()) ==> r.value.off == ctx.orgOff
    ensures r.Ok? && bypass ==> r.value == Send(ctx, k, GetData(ctx, Prev(k))).(off := ctx.orgOff)
    ensures r.Ok? && !bypass ==>
              var a := GetData(ctx, Prev(k)).value;
              && GetData(r.value, Some(k)).Some?
              && var b := GetData(r.value, Some(k)).value;
              && r.value.off == Some(FlipSwapOffset(a.Ht(), a.Wd(), ctx.orgOff.value, f))
              && b.AtLeast2D()
              && (if f.swapXY then b.Ht() == a.Wd() && b.Wd() == a.Ht() else b.Ht() == a.Ht() && b.Wd() == a.Wd())
              && |b.shape| == |a.shape| && b.shape[2..] == a.shape[2..]
              && b.tags == a.tags && b.layers == a.layers
              && r.value == Send(ctx, k, Some(b)).(off := r.value.off)
  {
    var data := GetData(ctx, Prev(k));
    var _ :- Verify2D(FlipSwapName, data);
    if ctx.orgOff.None? then Err(Fault("cannot unpack non-iterable NoneType object"))
    else if bypass then Ok(Send(ctx, k, data).(off := ctx.orgOff))
    else if data.None? then Err(Fault("'NoneType' object has no attribute 'shape'"))
    else
      var a := data.value;
      var off := FlipSwapOffset(a.Ht(), a.Wd(), ctx.orgOff.value, f);
      var b := if f.swapXY then SwapAxes(a) else a;
      Ok(Send(ctx, k, Some(b)).(off := Some(off)))
  }

  /** Rotate the frame (rotate_clip keeps the shape), optionally flip it
      upside down, and compute the destination anchor from the
      post-transform height. */
  function Rotate(rotated: bool, invertY: bool, bypass: bool, k: nat, ctx: Ctx): (r: Result<Ctx>)
    ensures var data := GetData(ctx, Prev(k));
            r.Ok? <==> Verify2D(RotateName, data).Ok? && data.Some? && ctx.off.Some?
    ensures r.Ok? ==>
              var a := GetData(ctx, Prev(k)).value;
              var off := ctx.off.value;
              && r.value.dst.Some?
              && r.value.dst.value.x + off.x == ctx.state.ctr.x
              && r.value.dst.value.y + a.Ht() - off.y == ctx.state.ctr.y
              && r.value == Send(ctx, k, Some(a)).(dst := r.value.dst)
  {
    var data := GetData(ctx, Prev(k));
    var _ :- Verify2D(RotateName, data);
    if data.None? then
      Err(Fault(if !bypass && (rotated || invertY) then "cannot transform None"
                else "'NoneType' object has no attribute 'shape'"))
    else if ctx.off.None? then Err(Fault("cannot unpack non-iterable NoneType object"))
    else
      var a := data.value;
      Ok(Send(ctx, k, Some(a)).(dst := Some(RotateDst(ctx.state.ctr, a.Ht(), ctx.off.value))))
  }

  /** Output fails with a StageError exactly on these two checks. */
  predicate OutputUndersized(a: Array, st: State)
    requires a.AtLeast2D()
  {
    a.Wd() < st.winWd || a.Ht() < st.winHt
  }

  predicate AnchorOutside(d: Pt) {
    d.x > 0 || d.y > 0
  }

  /** Trim the frame to the window at the destination anchor and reorder its
      channels for the renderer. */
  function Output(rendererOrder: string, bypass: bool, k: nat, ctx: Ctx): (r: Result<Ctx>)
    ensures var data := GetData(ctx, Prev(k));
            (r.Err? && r.error.StageError?) <==>
              || (data.Some? && !data.value.AtLeast2D())
              || (!bypass && data.Some? && data.value.AtLeast2D() &&
                  (OutputUndersized(data.value, ctx.state) ||
                   (ctx.dst.Some? && AnchorOutside(ctx.dst.value))))
    ensures var data := GetData(ctx, Prev(k));
            r.Ok? <==>
              && Verify2D(OutputName, data).Ok?
              && (bypass ||
                  (data.Some? && data.value.Is3D() && !OutputUndersized(data.value, ctx.state) &&
                   ctx.dst.Some? && !AnchorOutside(ctx.dst.value)))
    ensures r.Ok? && bypass ==>
              r.value == Send(ctx, k, GetData(ctx, Prev(k))).(outOrder := Some(ctx.state.order))
    ensures r.Ok? && !bypass ==>
              var a := GetData(ctx, Prev(k)).value;
              var d := ctx.dst.value;
              var st := ctx.state;
              && GetData(r.value, Some(k)).Some?
              && var o := GetData(r.value, Some(k)).value;
              && o.Is3D() && o.WellTagged() && o.tags == rendererOrder
              && o.Ht() <= st.winHt && o.Wd() <= st.winWd
              && o.Ht() == SliceLen(a.Ht(), -d.y, st.winHt)
              && o.Wd() == SliceLen(a.Wd(), -d.x, st.winWd)
              && (-d.y + st.winHt <= a.Ht() ==> o.Ht() == st.winHt)
              && (-d.x + st.winWd <= a.Wd() ==> o.Wd() == st.winWd)
              && o.layers == a.layers
              && r.value == Send(ctx, k, Some(o)).(outOrder := Some(rendererOrder))
  {
    var data := GetData(ctx, Prev(k));
    var st := ctx.state;
    var _ :- Verify2D(OutputName, data);
    if bypass then Ok(Send(ctx, k, data).(outOrder := Some(st.order)))
    else if data.None? then Err(Fault("'NoneType' object has no attribute 'shape'"))
    else
      var a := data.value;
      if OutputUndersized(a, st) then
        Err(StageError(OutputName, "pipeline output doesn't cover window"))
      else if ctx.dst.None? then Err(Fault("cannot unpack non-iterable NoneType object"))
      else if AnchorOutside(ctx.dst.value) then
        Err(StageError(OutputName, "pipeline calculated dst is not correct"))
      else
        var d := ctx.dst.value;
        var cut := CropShape(a, -d.y, -d.x, st.winHt, st.winWd);
        var o :- ReorderImage(rendererOrder, cut, st.order);
        Ok(Send(ctx, k, Some(o)).(outOrder := Some(rendererOrder)))
  }
}
